=== FILE: README.md ===
# Interactive transfer-function design: a Dafny model

The system helps a user design a transfer function for direct volume
rendering. After a volume loads, the browser bins its voxels by value. For
each bin it computes a feature: value range, point count, centroid, spatial
variance, and distance of the centroid from the volume centre. It posts the
features to a small Node server.

The server's `Controller` makes eight candidate transfer functions. Each
candidate has one control point per feature. The point's position is the
rounded mean value of the feature, and its colour comes from HSV settings
derived from the feature's variance and distance. The browser turns every
candidate into a 256-pixel RGBA ramp and shows it on one of eight preview
canvases around the main canvas.

Clicking a preview sends its index back. The server then regenerates the
seven other candidates near the clicked one, and finally the clicked one
itself. Each round uses smaller random magnitudes.

The project models this loop in ten modules:

- `Numbers`: JavaScript's `Math.round` and `Math.ceil`, the truncating `%`,
  and the `Uint8Array` store.
- `Color`: `convertHSVToRGB`, including hues that select no sector.
- `ClusterStats`: the feature of one bin.
- `Synthesizer`: the `Controller`. This covers the reductions, range
  mapping, seeding, adaptation and `getParameters`, with the
  process-wide magnitudes passed in and out.
- `RoundOrder`: an adaptation round updates rows in place, in order,
  with the selected row last. This module proves that the result equals a
  round that reads only the old selected row.
- `Server`: the request handler. It covers the route, `OPTIONS`/`POST`/404,
  the session, and an uncaught exception ending the process.
- `Ramp`: `interpolateTransferFunction`, both as written and corrected.
- `VolumeState`: the guards of `readModality`, the `ready` flag and
  `getTexture`.
- `RenderContext`: the preview layout, dirty-flag matrix broadcast,
  renderer and tone-mapper choice, filter resets, context loss and
  restore, the frame loop, and the preview click, both as one step and split
  at its `await`.
- `Wrappers`: `Option` and `Result`.

`Math.random`, the d3 power scale and `Math.sqrt` are parameters. The
draws are indexed by candidate and feature. The power scale must map its
domain into the requested range. WebGL objects are opaque tokens or
counters: a renderer is its matrices, its ramp and its numbers of resets and
frames.

Three behaviours of the code that a reader might not expect:

- A click hands the main renderer the ramp the clicked preview held before
  the request, not the ramp of the candidate it selects
  (`RenderContext.ClickOrder`).
- An empty feature list is truthy, and creating a controller on it throws.
- An out-of-range candidate index throws inside the request's `end`
  listener, which ends the server process.

## Model

| member | source | states |
|---|---|---|
| Numbers.Round | Server/controllers.js:306 | `Math.round` is the integer nearest to x, with ties going up. |
| Numbers.Ceil | VPT/src/js/RenderingContext.js:113 | `Math.ceil` is the least integer not below x. |
| Numbers.JsRem6 | Server/controllers.js:297 | `i % 6` differs from `i` by a multiple of 6 and has the sign of `i`: in [0,6) for i ≥ 0 and in (-6,0] otherwise, which pins its value in both cases. |
| Numbers.ToUint8 | VPT/src/js/Volume.js:303-310 | A value stored in a `Uint8Array` reads back as the byte congruent to it modulo 256, so bytes read back unchanged. |
| Color.SectorRgb | Server/controllers.js:297-304 | The switch defines the colour exactly when the selector is a case 0–5. |
| Color.Components | Server/controllers.js:291-304 | Every non-negative hue selects a sector; the colour is defined exactly when the selector is non-negative. |
| Color.ConvertHsvToRgb | Server/controllers.js:287-307 | The conversion is defined exactly when the hue selects a sector, which every non-negative hue does; alpha is `round(a*255)`. |
| Color.SectorRgbBounded | Server/controllers.js:293-304 | Inside a sector, every component lies in [0, v] and one of them equals v. |
| Color.ComponentsBounded | Server/controllers.js:291-304 | For a non-negative hue, the components lie in [0, v] and reach v. |
| Color.HsvChannelsInRange | Server/controllers.js:276-307 | With h, s, v and a in [0,1], as the doc comment assumes, all four channels are bytes and the largest colour channel is `round(v*255)`. |
| Color.HsvGreyWhenUnsaturated | Server/controllers.js:293-306 | Zero saturation gives a grey whose channels are all `round(v*255)`. |
| Color.HsvHueOneIsHueZero | Server/controllers.js:291-297 | Hue 1 wraps to sector 0 and gives the same colour as hue 0. |
| Color.HsvReferenceValues | Server/controllers.js:287-307 | White, pure red and pure green come out as the standard RGBA bytes. |
| Color.HsvNegativeHueUndefined | Server/controllers.js:291-304 | A small negative hue matches no case, so the colour is left undefined. |
| ClusterStats.ComputeFeature | VPT/src/js/Volume.js:137-205 | The loop computes the reference feature of a bin, with the bin's value range, its point count and a non-negative variance. An empty bin still yields a feature, with 0 points and variance 0; only a non-empty bin has a centroid and a distance. |
| ClusterStats.ComputeFeatures | VPT/src/js/Volume.js:135-206 | One feature per bin, empty bins included, in bin order, each the bin's reference feature. |
| ClusterStats.VarianceNonNegative | VPT/src/js/Volume.js:157-178 | The within-cluster variance, a sum of squared deviations, is never negative. |
| ClusterStats.SingletonBin | VPT/src/js/Volume.js:140-205 | A one-point bin has that point as its centroid, variance 0 and one point. |
| ClusterStats.MeanValueWithinMembers | VPT/src/js/Volume.js:144-155 | The mean value of a bin lies between its smallest and largest member values. |
| Synthesizer.Decay | Server/controllers.js:147-149 | Each round multiplies the three magnitudes by 0.8, which keeps them valid and never grows the hue magnitude. |
| Synthesizer.CalculateVolumeData | Server/controllers.js:33-51 | The four reductions: they fail exactly on an empty volume; otherwise each bound is attained by some feature and bounds every feature. |
| Synthesizer.InterpolateEndpoints | Server/controllers.js:153-156 | The affine map sends min to newMin and max to newMax. |
| Synthesizer.InterpolateWithin | Server/controllers.js:153-156 | A number inside [min, max] lands inside [newMin, newMax]. |
| Synthesizer.InterpolateMonotone | Server/controllers.js:153-156 | The map preserves order. |
| Synthesizer.Saturation | Server/controllers.js:103 | Saturation lies in (0, 1] for a feature inside the ranges and a non-negative seed. |
| Synthesizer.Alpha | Server/controllers.js:126 | Opacity lies in [0, 1]. |
| Synthesizer.Value | Server/controllers.js:113 | Value lies in (0, 1] whenever the power scale stays in its range. |
| Synthesizer.AlphaEndpoints | Server/controllers.js:123-126 | The least-variance feature is opaque and the greatest-variance feature is transparent. |
| Synthesizer.AlphaNonIncreasing | Server/controllers.js:123-126 | Larger variance never gives more opacity. |
| Synthesizer.Jitter | Server/controllers.js:64-80 | A jittered seed is clamped to [0, range], and it stays within half a magnitude of its base when the base is in range. |
| Synthesizer.Clamp | Server/controllers.js:65-69 | The clamp keeps values inside [0, range], sends values above the range to it and values below zero to 0. |
| Synthesizer.WrapHue | Server/controllers.js:236-240 | Wrapping moves a hue by at most one turn and brings any hue in [-1, 2] into [0, 1]. |
| Synthesizer.GenerateCluster | Server/controllers.js:64-139 | A fresh setting is valid for its feature, with its seeds within half a magnitude of the global defaults and its hue the raw draw. |
| Synthesizer.AdaptCluster | Server/controllers.js:205-247 | An adapted setting is valid, with its seeds within half a magnitude of the selected ones, its hue near the selected hue up to a turn, and the same opacity. |
| Synthesizer.AdaptedSeeds | Server/controllers.js:208-240 | The adapted startS, startV and hue stay in range and near the selected setting's values. |
| Synthesizer.AdaptedHue | Server/controllers.js:235-240 | The adapted hue is in [0,1] and within half the hue magnitude of the selected hue up to a turn. |
| Synthesizer.WrappedHueNear | Server/controllers.js:235-240 | The jittered and wrapped hue is in [0,1] and near the selected hue modulo one turn. |
| Synthesizer.HueJitterWithin | Server/controllers.js:235 | The hue before wrapping lies in [-1/2, 3/2], so one wrap suffices. |
| Synthesizer.CandidateOf | Server/controllers.js:134-137 | A candidate has one control point per feature, in feature order, coloured by that feature's setting. |
| Synthesizer.GenerateRow | Server/controllers.js:57-140 | One candidate's settings: every setting is valid and seeded near the defaults. |
| Synthesizer.GenerateAll | Server/controllers.js:53-145 | The eight candidates satisfy the session invariant on the given volume and ranges. |
| Synthesizer.NewController | Server/controllers.js:22-31 | The constructor fails exactly on an empty volume. Otherwise the session is valid on that volume, the ranges are its reductions, every seed is near the defaults, and the magnitudes decay once. |
| Synthesizer.AdaptedRow | Server/controllers.js:197-253 | An adapted row is valid, and every setting is near its selected counterpart with the same opacity. |
| Synthesizer.AdaptCandidate | Server/controllers.js:197-253 | Adapting candidate tf replaces only row tf and its candidate and keeps the session valid. |
| Synthesizer.WithRow | Server/controllers.js:250-252 | Storing a row back changes only that row and its candidate and keeps the session valid. |
| Synthesizer.AdaptInOrder | Server/controllers.js:179-189 | Adapting in any order keeps the session valid on the same volume and ranges. |
| Synthesizer.SourceOrder | Server/controllers.js:179-189 | Every index 0–7 is visited, with the selected one last. |
| Synthesizer.AdaptFunctions | Server/controllers.js:175-195 | A round fails exactly for an index outside [0, 8); otherwise the session stays valid on the same volume and the magnitudes decay by 0.8. |
| Synthesizer.GetParameters | Server/controllers.js:256-271 | Without a selection the session is unchanged and the magnitudes reset to (30, 4, 2/3); with one it is a round that fails exactly outside [0, 8). |
| Synthesizer.AdaptInOrderRewritesRows | Server/controllers.js:179-189 | The in-order round is the generic in-place row replacement. |
| Synthesizer.AdaptOrderMatchesParallel | Server/controllers.js:175-195 | The in-place round, with the selected candidate last, equals adapting every candidate from the old selected row. |
| Synthesizer.AdapterIsParallel | Server/controllers.js:197-253 | Applying the row adapter to every index gives the parallel round. |
| Synthesizer.PointFacts | Server/controllers.js:134-137 | A control point sits at the rounded mean value of its feature and its colour is four bytes. |
| Synthesizer.CellOfValid | Server/controllers.js:134-137 | In a valid session every cell's setting is valid and its point is the colouring of that setting. |
| Synthesizer.PositionsFollowCentroids | Server/controllers.js:134-137 | Every candidate has one point per feature, placed at the feature's rounded mean, with byte colours. |
| Synthesizer.AdaptKeepsPositions | Server/controllers.js:242-245 | A round recolours points but never moves them. |
| Synthesizer.AlphaFromVariance | Server/controllers.js:126 | Every opacity in a valid session is the variance-derived opacity of its feature. |
| Synthesizer.AlphaSharedAndStable | Server/controllers.js:231 | All candidates share each feature's opacity, and a round keeps it. |
| Synthesizer.AdaptSeedsNearSelected | Server/controllers.js:205-240 | After a round, every candidate's seeds and hue are near the selected candidate's old ones. |
| Synthesizer.ResetKeepsCandidates | Server/controllers.js:261-270 | `getParameters()` without a selection returns the current candidates and resets the magnitudes. |
| RoundOrder.ReplaceFrom | Server/controllers.js:250-252 | Replacing row tf with a function of row k changes row tf only. |
| RoundOrder.ReplaceOthers | Server/controllers.js:179-187 | When the order skips k, each row is replaced from the untouched row k exactly when its index is visited. |
| RoundOrder.ReplaceAppend | Server/controllers.js:179-189 | A round over a concatenated order is the round over the first part followed by the round over the second. |
| RoundOrder.SelectedLastIsParallel | Server/controllers.js:179-189 | Replacing the others first and the selected row last equals replacing every row from the old selected row. |
| Ramp.LerpBetween | VPT/src/js/Volume.js:328-337 | An interpolated channel lies between its two end channels and equals the first channel at the first position. |
| Ramp.BlendBetween | VPT/src/js/Volume.js:320-337 | Every channel of an interpolated pixel lies between the two neighbours' channels. |
| Ramp.FirstAbove | VPT/src/js/Volume.js:316-341 | The segment lookup finds the first point after a pixel, or reports that there is none. |
| Ramp.Stored | VPT/src/js/Volume.js:303-310 | A colour stored in the ramp reads back as bytes, unchanged when already bytes. |
| Ramp.Bytes | VPT/src/js/Volume.js:303-352 | Four bytes per pixel; each pixel reads back as its stored colour. |
| Ramp.Ramp | VPT/src/js/Volume.js:300-357 | An empty list gives `[]`. The function throws exactly when the first position exceeds the number of points. Otherwise it gives 1024 bytes whose pixel k is the as-written pixel. |
| Ramp.InterpolateTransferFunction | VPT/src/js/Volume.js:300-357 | The three loops over a 1024-byte array compute exactly the functional ramp, including the throw. |
| Ramp.CorrectedRamp | VPT/src/js/Volume.js:300-357 | The corrected ramp: `[]` for no points, else 1024 bytes whose leading pixels copy the first point. |
| Ramp.SegmentAtControlPoint | VPT/src/js/Volume.js:316-341 | For strictly increasing positions, a point's own position has exactly its colour. |
| Ramp.SegmentBetween | VPT/src/js/Volume.js:316-341 | Between two neighbouring points the pixel blends those two points. |
| Ramp.SegmentTail | VPT/src/js/Volume.js:343-352 | From the last position on, the pixel is the last colour. |
| Ramp.RampHitsControlPoints | VPT/src/js/Volume.js:316-341 | Both ramps reproduce each control point's colour at its position. |
| Ramp.RampBetweenNeighbours | VPT/src/js/Volume.js:316-341 | Between two points, both ramps hold the blend, each channel between the neighbours. |
| Ramp.RampTailIsLast | VPT/src/js/Volume.js:343-352 | Pixels from the last position to 255 hold the last colour in both ramps. |
| Ramp.RampLeadCopiesOwnIndex | VPT/src/js/Volume.js:306-314 | As written, a pixel k before the first position copies point k, not point 0. |
| Ramp.LeadingFillCounterexample | VPT/src/js/Volume.js:306-314 | Points at 2 (red) and 3 (blue) make pixel 1 blue, not red. A single point at 5 throws. |
| Ramp.LeadingFill | VPT/src/js/Volume.js:306-314 | The leading loop writes the as-written leading pixels, one per point index, and stops early only when it runs out of points. |
| Ramp.PairLoop | VPT/src/js/Volume.js:316-342 | The loop between points `j` and `j + 1` moves the cursor to the position of point `j + 1` and keeps every pixel below it equal to the ramp's pixel. |
| Ramp.TrailFill | VPT/src/js/Volume.js:344-352 | The trailing loop completes all 256 pixels, so every pixel of the array equals the ramp's pixel. |
| Ramp.CorrectedLeadingFill | VPT/src/js/Volume.js:306-314 | The corrected ramp copies point 0 before the first position and agrees with the as-written ramp from there on. |
| VolumeState.NewVolume | VPT/src/js/Volume.js:5-19 | A new volume is not ready and has no metadata or texture. |
| VolumeState.ReadMetadata | VPT/src/js/Volume.js:28-38 | Without a reader nothing changes; otherwise the volume stops being ready and takes the new modalities. |
| VolumeState.FindFrom | VPT/src/js/Volume.js:50 | The search returns the first index with the name, or none exactly when no modality has it. |
| VolumeState.FindModality | VPT/src/js/Volume.js:50 | `find` returns the first modality with the name, or nothing exactly when none has it. |
| VolumeState.BeginReadModality | VPT/src/js/Volume.js:40-63 | No reader and no modalities are refused with nothing changed. Otherwise the volume becomes not ready. It fails exactly when the name is missing, and on success takes the new texture. |
| VolumeState.FinishReadModality | VPT/src/js/Volume.js:220 | The end of loading sets the volume ready and changes nothing else. |
| VolumeState.GetTexture | VPT/src/js/Volume.js:246-252 | The texture is handed out exactly when the volume is ready. |
| VolumeState.TextureHiddenWhileLoading | VPT/src/js/Volume.js:246-252 | While a modality loads `getTexture` gives `null`; afterwards it gives the new texture. |
| VolumeState.ReadModality | VPT/src/js/Volume.js:40-221 | The whole read succeeds exactly when the guards pass and the loading does not throw. It fails with the load error exactly when the guards pass and the loading throws. The volume ends ready exactly on success, or unchanged when the first two guards refuse. |
| VolumeState.ReadyIffLoaded | VPT/src/js/Volume.js:40-221 | After `readModality`, a success is ready with the new texture. A missing name or a throw while loading leaves it not ready, so `getTexture` answers `null`. The first two guards change nothing. |
| VolumeState.GuardOrder | VPT/src/js/Volume.js:40-53 | The reader is checked first, then the modalities, then the name. Only a read past all three guards can fail while loading. |
| Server.StripTrailingSlash | Server/app.js:11 | Exactly one trailing slash, if present, is removed and nothing else changes. |
| Server.HandlePost | Server/app.js:24-56 | Handling a `POST` body keeps the server invariant. |
| Server.Handle | Server/app.js:8-66 | The invariant is kept. A crash happens exactly when a running server stops. A stopped server answers nothing. |
| Server.TrailingSlashMatches | Server/app.js:11-15 | The route matches with or without one trailing slash but not with two. |
| Server.OptionsIsEmpty | Server/app.js:15-23 | `OPTIONS` on the route answers 200 with no body and changes nothing. |
| Server.UnknownRouteIsNotFound | Server/app.js:58-65 | Any other URL or method answers 404 "Route not found" and changes nothing. |
| Server.VolumeStartsSession | Server/app.js:35-38 | A non-empty volume starts a session on it whatever `tfIndex` says, resets the magnitudes and answers the candidates. An empty volume crashes. |
| Server.IndexWithoutSession | Server/app.js:33-42 | Without a session a body without a volume answers `{}`. |
| Server.IndexOnSession | Server/app.js:39-42 | `tfIndex: null` resets the magnitudes and answers the current candidates. An index in [0,8) runs one round on the same volume. Any other index crashes with the session unchanged. |
| Server.UnparsableCrashes | Server/app.js:29-31 | A body that is not JSON ends the process. |
| Server.NullBodyCrashes | Server/app.js:31-35 | The body `null` parses, but reading its `volume` throws inside the listener, so the process ends with the session as it was. |
| RenderContext.AddPreviews | VPT/src/js/RenderingContext.js:106-135 | Four previews per column, numbered from the start index. |
| RenderContext.NewContext | VPT/src/js/RenderingContext.js:23-88 | The constructor leaves eight previews, clean flags and no renderer. |
| RenderContext.UpdateMvpInverseMatrix | VPT/src/js/RenderingContext.js:422-461 | The update clears both flags and does nothing when neither was set. |
| RenderContext.SetScale | VPT/src/js/RenderingContext.js:545-548 | The scale changes and the transformation becomes dirty. |
| RenderContext.SetTranslation | VPT/src/js/RenderingContext.js:554-557 | The translation changes and the transformation becomes dirty. |
| RenderContext.ChooseRenderer | VPT/src/js/RenderingContext.js:335-365 | The main canvas and every preview get a new renderer of the kind, and the transformation becomes dirty. |
| RenderContext.ChooseToneMapper | VPT/src/js/RenderingContext.js:367-408 | The main canvas and every preview get a tone mapper and nothing else changes. |
| RenderContext.DrawPreview | VPT/src/js/RenderingContext.js:609-621 | Drawing keeps a preview drawable with the same ramp. |
| RenderContext.AssignPreviewRamps | VPT/src/js/Volume.js:213-215 | After the first load, each preview below the response length takes its candidate's corrected ramp and the others are unchanged. With the corrected ramp, it throws exactly when the response is longer than the previews. |
| RenderContext.PreviewLayout | VPT/src/js/RenderingContext.js:106-135 | Previews 0–7 in index order, 0–3 on the left, square with side `ceil(resolution/4)`, with no renderer or ramp. |
| RenderContext.UpdateBroadcasts | VPT/src/js/RenderingContext.js:422-461 | With a flag set, every existing renderer takes the same matrices and one reset, and nothing else changes. A second update is a no-op. |
| RenderContext.TransformReachesRenderers | VPT/src/js/RenderingContext.js:545-557 | A new scale and translation reach every renderer at the next update. |
| RenderContext.ChosenRenderersGetMatrices | VPT/src/js/RenderingContext.js:335-365 | After a renderer is chosen, the next update gives every renderer the current matrices with exactly one reset. |
| RenderContext.SetFilter | VPT/src/js/RenderingContext.js:314-333 | The filter is stored. The main renderer is reset exactly when a volume and a renderer exist, and each preview's renderer is reset exactly when that preview has both; nothing else changes. |
| RenderContext.FilterKeepsDrawnPreviews | VPT/src/js/RenderingContext.js:314-333 | A filter change never changes which previews the next `drawPreviews` draws. |
| RenderContext.LossDecidedByTarget | VPT/src/js/RenderingContext.js:250-258 | Whether a lost context is prevented depends only on the lost canvas's own restorable flag: the main canvas ignores the previews, and a preview ignores everything but itself. |
| RenderContext.ContextRestored | VPT/src/js/RenderingContext.js:260-266 | The restored canvas, main or preview, gets a usable and restorable context; every other canvas and the rest of the context are unchanged. |
| RenderContext.RestoreOnlyTarget | VPT/src/js/RenderingContext.js:250-266 | A restore touches only the target canvas and makes a further loss there prevented. A loss on any other canvas is decided as before. A restored preview is drawable again exactly when it still has its renderer and tone mapper. |
| RenderContext.DrawStopsAtFirstGap | VPT/src/js/RenderingContext.js:586-593 | `drawPreviews` draws exactly the previews before the first undrawable one, in order, and leaves the rest untouched. |
| RenderContext.DrawPreviews | VPT/src/js/RenderingContext.js:586-622 | The previews before the first undrawable one are drawn, in index order, and nothing else is drawn; that preview and all after it are untouched, and nothing else about the context changes. |
| RenderContext.DrawnPreviewRendersWithRamp | VPT/src/js/RenderingContext.js:614-621 | A drawn preview renders a frame with its ramp exactly when it has one. |
| RenderContext.UpdatePreviewsInOrder | VPT/src/js/RenderingContext.js:791-795 | With every reached preview present, each takes its ramp and is reset, in index order, and the others are unchanged. |
| RenderContext.ClickOrder | VPT/src/js/RenderingContext.js:780-799 | The main renderer first takes the clicked preview's old ramp; then the index is sent, the previews are updated in order, and the main renderer is reset last. |
| RenderContext.ClickFailures | VPT/src/js/RenderingContext.js:780-799 | With no main renderer or no clicked ramp the handler throws before changing anything. A response that is too long throws before the main reset. |
| RenderContext.UpdatePreviewsOverrun | VPT/src/js/RenderingContext.js:791-795 | The update loop throws at the first index past the last preview. |
| RenderContext.UpdatePreviews | VPT/src/js/RenderingContext.js:791-795 | Only the previews between the start index and the response length can change. The loop throws exactly when it reaches an index with no preview or with a preview that has no renderer, and it names the first such index. |
| RenderContext.HandlePreviewClick | VPT/src/js/RenderingContext.js:780-799 | When nothing runs during the `await`: with no main renderer or no clicked ramp, nothing changes and that error is raised. Otherwise the main renderer takes the clicked ramp and the index is sent first. The handler succeeds exactly when every candidate has a preview with a renderer; only then is the main renderer reset, as the last step. Previews past the response are untouched. |
| RenderContext.ClickSend | VPT/src/js/RenderingContext.js:780-789 | Before the `await`: with no main renderer or no clicked ramp, nothing changes and that error is raised. Otherwise only the main renderer changes, taking the clicked ramp, and the steps are that hand-over and the sent index. |
| RenderContext.ClickResponse | VPT/src/js/RenderingContext.js:791-799 | After the `await`, on the context as it then is: only the previews below the response length and the main renderer can change. The first preview that is missing or has no renderer stops it before the main reset. Otherwise a missing main renderer throws, and a present one is reset as the last step. |
| RenderContext.ResponseUpdatesAll | VPT/src/js/RenderingContext.js:791-799 | An answer every reached preview can take succeeds: each preview below its length holds its candidate's ramp, no preview renderer appears or disappears, and the main renderer is reset once. |
| RenderContext.RendererChosenMidClick | VPT/src/js/RenderingContext.js:780-799 | A renderer chosen while the request is pending is the one reset at the end, and it holds no ramp: the clicked ramp is lost. |
| RenderContext.SecondClickBeforeAnswer | VPT/src/js/RenderingContext.js:780-799 | A second click before the first answer sends both indices first. The previews end with the second answer's ramps, and the main renderer keeps the ramp the second preview held before either answer, reset once per answer. |
| RenderContext.RenderDrawsFrame | VPT/src/js/RenderingContext.js:463-539 | A frame brings the matrices up to date, renders one main frame, and draws the previews up to the first gap. |
| RenderContext.Render | VPT/src/js/RenderingContext.js:463-467 | Without a context, a renderer or a tone mapper the frame does nothing. |
| RenderContext.ChosenPreviewsAllDrawn | VPT/src/js/RenderingContext.js:586-593 | Once a renderer and a tone mapper are chosen, every preview with a live context is drawn. |

## Left out

- WebGL itself (textures, programs, viewports, shaders, the actual
  rendering) is out of scope: renderers and tone mappers are reduced to the
  state the context code sets on them.
- Camera and matrix arithmetic are left out: matrices are opaque tokens, and a model matrix
  is the pair (scale, translation) it is built from.
- Reading blocks, `_typize`, the texture upload and the `progress` events
  are I/O that the model does not represent. `readModality` is modelled as its guards, the
  `ready` flag, the texture swap and the final preview assignment. Whether
  the loading in between throws is the parameter `loadThrows` of
  `VolumeState.ReadModality`, not derived from the steps that throw.
- d3 binning (`d3.bin` with Sturges thresholds) is a library call: the
  bins are inputs to `ClusterStats`.
- `Math.sqrt` and d3's power scale are library floating-point functions: they are parameters.
  The power scale only has to map its domain into the requested range.
- Floating-point rounding is not modelled: JavaScript numbers are modelled as reals.
- `Math.random` is a parameter: the draws are explicit values in [0, 1).
- Equal variances in every feature make the source divide 0 by 0, giving
  `NaN` saturations. `NewController` requires distinct variances instead.
- Synthesizer.NewController: does not model the `NaN` candidates the source
  produces when every feature has the same variance (see above).
- A `tfIndex` or `volume` field of the wrong type (a string, a fraction, an
  object) is excluded: the body is already parsed into a missing, `null`
  or integer index and a missing or array volume. A body that is the JSON
  value `null` is modelled (`NullBody`).
- `sendFeatures` and `fetch` are the network. The response is given as a
  list of candidates. A failed request answers `[]`, which is that list
  empty. An answer without `transferFunctions` is not modelled.
- `setVolume`, `resize`, `setResolution`, `setEnvironmentMap`,
  `startRendering`/`stopRendering` and the getters are I/O or DOM wiring with
  nothing to state beyond assignment.
- The `drawTransferFunctions` checkbox only changes which texture is
  composited, so it is left out.
- `interpolateLogarithmic` is never called.
- Application.js and SingleBuffer.js are callers, not part of this model.
- ClusterStats.ComputeFeature: the `NaN` centroid and distance of an empty bin
  are not represented. After JSON they arrive at the server as `null`, and the
  server would place that feature's control point at position 0 with the
  smallest variance; the server model takes its features as given and does
  not follow this path.
- Server.Handle: the response headers (content type and CORS) are not modelled.
- RenderContext.AssignPreviewRamps: uses the corrected ramp (see Findings), so
  the throw of the as-written ramp, when a candidate's first position exceeds
  its number of points (`Ramp.Ramp`'s `MissingPoint`), is not among its errors.
- RenderContext.HandlePreviewClick: uses the corrected ramp (see Findings), so the
  throw of the as-written ramp on a short list is not among its errors.
- RenderContext.ClickResponse: states its facts about the corrected ramps the previews
  take (see Findings), not the as-written ones.
- RenderContext.UpdatePreviews: states its facts about the corrected ramps the previews
  take (see Findings), not the as-written ones.
- RenderContext.UpdatePreviewsInOrder: states its facts about the corrected ramps the previews
  take (see Findings), not the as-written ones.
- RenderContext.ResponseUpdatesAll: states its facts about the corrected ramps the previews
  take (see Findings), not the as-written ones.
- RenderContext.ClickOrder: states its facts about the corrected ramps the previews
  take (see Findings), not the as-written ones.
- RenderContext.ClickFailures: states its facts about the corrected ramps the previews
  take (see Findings), not the as-written ones.
- RenderContext.RendererChosenMidClick: states its facts about the corrected ramps the previews
  take (see Findings), not the as-written ones.
- RenderContext.SecondClickBeforeAnswer: states its facts about the corrected ramps the previews
  take (see Findings), not the as-written ones.
- RenderContext.HandlePreviewClick: models the handler as one step, with nothing
  running during its `await`. The two halves are `RenderContext.ClickSend` and
  `RenderContext.ClickResponse`, and any context operation may run between them.
  Two interleavings are proved: `RenderContext.RendererChosenMidClick` and
  `RenderContext.SecondClickBeforeAnswer`. The server side of a second click is not
  followed: the server adapts around the clicked candidate of a round whose answer
  the previews have not yet shown.

## Findings

| source | as written | input that shows it | evidently intended | confidence | as-written member | corrected member |
|---|---|---|---|---|---|---|
| VPT/src/js/Volume.js:306-314 | The leading fill copies `tfArray[i]`, the i-th point, into pixel i for every pixel before the first position. | Points at positions 2 (red) and 3 (blue) make pixel 1 blue. A single point at position 5 reads `tfArray[1]` and throws a `TypeError`. | Pixels before the first position copy the first point, `tfArray[0]`. | not executed | Ramp.LeadingFillCounterexample | Ramp.CorrectedLeadingFill |

The rest of the model, namely the preview ramps assigned after a load or a
click in `RenderContext`, uses `Ramp.CorrectedRamp`.

=== FILE: cluster_stats.dfy ===
/** The per-bin cluster statistics computed while a volume modality is read
    for previews: centroid, spatial variance and distance of the centroid from
    the volume centre. Binning itself is done by a foreign histogram routine;
    the bins arrive here as input. */
module ClusterStats {

  /** One voxel: its position inside the block and its scalar value. */
  datatype Sample = Sample(x: real, y: real, z: real, value: real)

  /** One histogram bin: its value range `[x0, x1)` and its member samples. */
  datatype Bin = Bin(x0: real, x1: real, members: seq<Sample>)

  datatype Centroid = Centroid(x: real, y: real, z: real, v: real)

  datatype Dimensions = Dimensions(width: real, height: real, depth: real)

  /** The feature record sent to the synthesizer, one per bin. */
  datatype Cluster = Cluster(
    minValue: real,
    maxValue: real,
    numberOfPoints: nat,
    mean: Centroid,
    variance: real,
    distanceToVolumeCenter: real)

  /** Left-to-right sum of `f` over the samples, the order the loop adds them. */
  function Sum(s: seq<Sample>, f: Sample -> real): real {
    if |s| == 0 then 0.0 else Sum(s[..|s| - 1], f) + f(s[|s| - 1])
  }

  function SampleX(p: Sample): real { p.x }
  function SampleY(p: Sample): real { p.y }
  function SampleZ(p: Sample): real { p.z }
  function SampleValue(p: Sample): real { p.value }

  /** Coordinate-wise mean of the members: the reference definition of the
      centroid. */
  function CentroidOf(s: seq<Sample>): Centroid
    requires |s| > 0
  {
    var n := |s| as real;
    Centroid(Sum(s, SampleX) / n, Sum(s, SampleY) / n, Sum(s, SampleZ) / n, Sum(s, SampleValue) / n)
  }

  /** Squared Euclidean distance of a sample's position from a centroid
      (the value coordinate is not part of it). */
  function SquaredDeviation(p: Sample, m: Centroid): real {
    (p.x - m.x) * (p.x - m.x) + (p.y - m.y) * (p.y - m.y) + (p.z - m.z) * (p.z - m.z)
  }

  /** Within-cluster spatial variance: the sum of squared deviations. */
  function SpatialVariance(s: seq<Sample>, m: Centroid): real {
    if |s| == 0 then 0.0 else SpatialVariance(s[..|s| - 1], m) + SquaredDeviation(s[|s| - 1], m)
  }

  function Center(d: Dimensions): Centroid {
    Centroid(d.width / 2.0, d.height / 2.0, d.depth / 2.0, 0.0)
  }

  /** Squared distance of the centroid from the volume centre; the source
      takes its square root. */
  function SquaredCenterDistance(m: Centroid, d: Dimensions): real {
    var c := Center(d);
    (m.x - c.x) * (m.x - c.x) + (m.y - c.y) * (m.y - c.y) + (m.z - c.z) * (m.z - c.z)
  }

  /** What the loop pushes for one bin. A bin with members gets its full
      statistics. An empty bin still gets a record: its count is 0 and its
      variance 0, because the deviation loop never runs, while its centroid
      and its distance divide zero by zero and are `NaN`, which this model
      does not represent. */
  datatype Feature =
    | Measured(cluster: Cluster)
    | EmptyBin(minValue: real, maxValue: real)

  function NumberOfPoints(f: Feature): nat {
    if f.Measured? then f.cluster.numberOfPoints else 0
  }

  function Variance(f: Feature): real {
    if f.Measured? then f.cluster.variance else 0.0
  }

  /** The value range `[minValue, maxValue)` a feature reports. */
  function ValueRange(f: Feature): (real, real) {
    if f.Measured? then (f.cluster.minValue, f.cluster.maxValue) else (f.minValue, f.maxValue)
  }

  /** The feature of one bin: the reference definition of the loop. */
  function FeatureOf(b: Bin, d: Dimensions, sqrt: real -> real): Feature {
    if |b.members| == 0 then EmptyBin(b.x0, b.x1)
    else
      var m := CentroidOf(b.members);
      Measured(Cluster(b.x0, b.x1, |b.members|, m, SpatialVariance(b.members, m),
                       sqrt(SquaredCenterDistance(m, d))))
  }

  lemma SumPrefix(s: seq<Sample>, j: nat, f: Sample -> real)
    requires j < |s|
    ensures Sum(s[..j + 1], f) == Sum(s[..j], f) + f(s[j])
  {
    assert s[..j + 1][..j] == s[..j];
  }

  lemma VariancePrefix(s: seq<Sample>, j: nat, m: Centroid)
    requires j < |s|
    ensures SpatialVariance(s[..j + 1], m) == SpatialVariance(s[..j], m) + SquaredDeviation(s[j], m)
  {
    assert s[..j + 1][..j] == s[..j];
  }

  /** The statistics loop for one bin: sums the coordinates, divides by the
      member count, then accumulates squared deviations from the centroid. */
  method ComputeFeature(b: Bin, d: Dimensions, sqrt: real -> real) returns (r: Feature)
    ensures r == FeatureOf(b, d, sqrt)
    ensures r.Measured? <==> |b.members| > 0
    ensures NumberOfPoints(r) == |b.members| && ValueRange(r) == (b.x0, b.x1)
    ensures Variance(r) >= 0.0 && (|b.members| == 0 ==> Variance(r) == 0.0)
  {
    var s := b.members;
    if |s| == 0 {
      return EmptyBin(b.x0, b.x1);
    }
    var sx, sy, sz, sv := 0.0, 0.0, 0.0, 0.0;
    var j := 0;
    while j < |s|
      invariant 0 <= j <= |s|
      invariant sx == Sum(s[..j], SampleX) && sy == Sum(s[..j], SampleY)
      invariant sz == Sum(s[..j], SampleZ) && sv == Sum(s[..j], SampleValue)
    {
      SumPrefix(s, j, SampleX);
      SumPrefix(s, j, SampleY);
      SumPrefix(s, j, SampleZ);
      SumPrefix(s, j, SampleValue);
      sx, sy, sz, sv := sx + s[j].x, sy + s[j].y, sz + s[j].z, sv + s[j].value;
      j := j + 1;
    }
    assert s[..|s|] == s;
    var n := |s| as real;
    var mean := Centroid(sx / n, sy / n, sz / n, sv / n);
    var variance := 0.0;
    j := 0;
    while j < |s|
      invariant 0 <= j <= |s|
      invariant variance == SpatialVariance(s[..j], mean)
    {
      VariancePrefix(s, j, mean);
      variance := variance + SquaredDeviation(s[j], mean);
      j := j + 1;
    }
    VarianceNonNegative(s, mean);
    r := Measured(Cluster(b.x0, b.x1, |s|, mean, variance, sqrt(SquaredCenterDistance(mean, d))));
  }

  /** The outer loop: one feature per bin, in bin order. */
  method ComputeFeatures(bins: seq<Bin>, d: Dimensions, sqrt: real -> real) returns (fs: seq<Feature>)
    ensures |fs| == |bins|
    ensures forall i :: 0 <= i < |bins| ==> fs[i] == FeatureOf(bins[i], d, sqrt)
  {
    fs := [];
    var i := 0;
    while i < |bins|
      invariant 0 <= i <= |bins| && |fs| == i
      invariant forall k :: 0 <= k < i ==> fs[k] == FeatureOf(bins[k], d, sqrt)
    {
      var f := ComputeFeature(bins[i], d, sqrt);
      fs := fs + [f];
      i := i + 1;
    }
  }

  lemma SquareNonNegative(x: real)
    ensures x * x >= 0.0
  {
    if x < 0.0 {
      assert x * x == (-x) * (-x);
    }
  }

  lemma DeviationNonNegative(p: Sample, m: Centroid)
    ensures SquaredDeviation(p, m) >= 0.0
  {
    SquareNonNegative(p.x - m.x);
    SquareNonNegative(p.y - m.y);
    SquareNonNegative(p.z - m.z);
  }

  /** Spatial variance is a sum of squares, hence never negative. */
  lemma {:induction false} VarianceNonNegative(s: seq<Sample>, m: Centroid)
    ensures SpatialVariance(s, m) >= 0.0
  {
    if |s| > 0 {
      VarianceNonNegative(s[..|s| - 1], m);
      DeviationNonNegative(s[|s| - 1], m);
    }
  }

  /** A bin with a single member has that member as its centroid and zero
      spatial variance. */
  lemma SingletonBin(b: Bin, d: Dimensions, sqrt: real -> real)
    requires |b.members| == 1
    ensures var p := b.members[0];
      && FeatureOf(b, d, sqrt).Measured?
      && FeatureOf(b, d, sqrt).cluster.mean == Centroid(p.x, p.y, p.z, p.value)
      && FeatureOf(b, d, sqrt).cluster.variance == 0.0
      && FeatureOf(b, d, sqrt).cluster.numberOfPoints == 1
  {
    var s := b.members;
    assert s[..0] == [];
    assert Sum(s, SampleX) == s[0].x && Sum(s, SampleY) == s[0].y;
    assert Sum(s, SampleZ) == s[0].z && Sum(s, SampleValue) == s[0].value;
    var m := CentroidOf(s);
    assert SpatialVariance(s, m) == SquaredDeviation(s[0], m);
  }

  /** Bounds on a sum from bounds on its terms. */
  lemma {:induction false} SumBetween(s: seq<Sample>, lo: real, hi: real)
    requires forall k :: 0 <= k < |s| ==> lo <= s[k].value <= hi
    ensures |s| as real * lo <= Sum(s, SampleValue) <= |s| as real * hi
  {
    if |s| > 0 {
      SumBetween(s[..|s| - 1], lo, hi);
    }
  }

  /** The centroid's value coordinate lies between the smallest and the
      largest member value. */
  lemma MeanValueWithinMembers(s: seq<Sample>, lo: real, hi: real)
    requires |s| > 0
    requires forall k :: 0 <= k < |s| ==> lo <= s[k].value <= hi
    ensures lo <= CentroidOf(s).v <= hi
  {
    SumBetween(s, lo, hi);
    MeanBetween(Sum(s, SampleValue), |s| as real, lo, hi);
  }

  /** Dividing by a positive count keeps a total's bounds per member. */
  lemma MeanBetween(t: real, n: real, lo: real, hi: real)
    requires n > 0.0 && n * lo <= t <= n * hi
    ensures lo <= t / n <= hi
  {
    var q := t / n;
    assert t == n * q;
    assert n * (q - lo) >= 0.0 && n * (hi - q) >= 0.0;
  }
}

=== FILE: color.dfy ===
/** Colours and control points of a transfer function, and the HSV to RGBA
    conversion the synthesizer uses to colour each cluster. */
module Color {
  import opened Wrappers
  import opened Numbers

  /** An RGBA colour whose channels are the integers `Math.round` produced. */
  datatype Rgba = Rgba(r: int, g: int, b: int, a: int)

  /** One point of a sparse transfer function: a value-axis position and the
      colour assigned there. */
  datatype ControlPoint = ControlPoint(position: int, value: Rgba)

  type TransferFunction = seq<ControlPoint>

  predicate IsByte(x: int) {
    0 <= x <= 255
  }

  predicate InByteRange(c: Rgba) {
    IsByte(c.r) && IsByte(c.g) && IsByte(c.b) && IsByte(c.a)
  }

  /** Red, green and blue before scaling to bytes. */
  datatype Rgb = Rgb(r: real, g: real, b: real)

  /** `Math.floor(h * 6)`. */
  function SectorIndex(h: real): int {
    (h * 6.0).Floor
  }

  /** The `switch` selector `i % 6`, with JavaScript's remainder: a negative
      hue gives a negative selector, which matches no case, except when `i`
      is a negative multiple of 6 (the selector is then `-0`, which the
      strict comparison of a `switch` treats as `0`). */
  function Sector(h: real): int {
    JsRem6(SectorIndex(h))
  }

  /** The fractional position of the hue inside its sector, `h * 6 - i`. */
  function Fraction(h: real): real {
    h * 6.0 - SectorIndex(h) as real
  }

  /** The `switch` over the selector: `None` when no `case` matches, leaving
      `r`, `g` and `b` undefined. */
  function SectorRgb(sector: int, f: real, s: real, v: real): (c: Option<Rgb>)
    ensures c.Some? <==> 0 <= sector < 6
  {
    var p := Shade(v, s);
    var q := Shade(v, f * s);
    var t := Shade(v, (1.0 - f) * s);
    if sector == 0 then Some(Rgb(v, t, p))
    else if sector == 1 then Some(Rgb(q, v, p))
    else if sector == 2 then Some(Rgb(p, v, t))
    else if sector == 3 then Some(Rgb(p, q, v))
    else if sector == 4 then Some(Rgb(t, p, v))
    else if sector == 5 then Some(Rgb(v, p, q))
    else None
  }

  /** `v * (1 - w)`, the darker shades a sector mixes. */
  function Shade(v: real, w: real): real {
    v * (1.0 - w)
  }

  /** The hexagonal-sector step of the conversion. */
  function Components(h: real, s: real, v: real): (c: Option<Rgb>)
    ensures c.Some? <==> Sector(h) >= 0
    ensures h >= 0.0 ==> c.Some?
  {
    SectorRgb(Sector(h), Fraction(h), s, v)
  }

  function ToByte(x: real): int {
    Round(x * 255.0)
  }

  /** `convertHSVToRGB(h, s, v, a)`. `None` stands for the result whose red,
      green and blue are `NaN` because the hue selected no sector. */
  function ConvertHsvToRgb(h: real, s: real, v: real, a: real): (r: Option<Rgba>)
    ensures r.Some? <==> Sector(h) >= 0
    ensures h >= 0.0 ==> r.Some?
    ensures r.Some? ==> r.value.a == Round(a * 255.0)
  {
    match Components(h, s, v)
    case Some(c) => Some(Rgba(ToByte(c.r), ToByte(c.g), ToByte(c.b), ToByte(a)))
    case None => None
  }

  function Max3(x: int, y: int, z: int): int {
    Max(Max(x, y), z)
  }

  /** `v * (1 - w)` lies in [0, v] when `w` does not leave [0, 1]. */
  lemma ShadeWithin(v: real, w: real)
    requires InUnit(v) && InUnit(w)
    ensures 0.0 <= Shade(v, w) <= v
  {
    ScaleWithin(v, 1.0 - w);
  }

  /** Inside a sector, with saturation and value in [0, 1], every component
      lies in [0, v] and one of them is `v` itself. */
  lemma SectorRgbBounded(sector: int, f: real, s: real, v: real)
    requires 0 <= sector < 6 && 0.0 <= f < 1.0 && InUnit(s) && InUnit(v)
    ensures var c := SectorRgb(sector, f, s, v).value;
      && 0.0 <= c.r <= v && 0.0 <= c.g <= v && 0.0 <= c.b <= v
      && (c.r == v || c.g == v || c.b == v)
  {
    SectorShades(f, s, v);
    var p, q, t := Shade(v, s), Shade(v, f * s), Shade(v, (1.0 - f) * s);
    if sector == 0 {
      PermutedWithin(Rgb(v, t, p), v, p, q, t);
    } else if sector == 1 {
      PermutedWithin(Rgb(q, v, p), v, p, q, t);
    } else if sector == 2 {
      PermutedWithin(Rgb(p, v, t), v, p, q, t);
    } else if sector == 3 {
      PermutedWithin(Rgb(p, q, v), v, p, q, t);
    } else if sector == 4 {
      PermutedWithin(Rgb(t, p, v), v, p, q, t);
    } else {
      PermutedWithin(Rgb(v, p, q), v, p, q, t);
    }
  }

  /** The three shades a sector mixes with `v` lie in [0, v]. */
  lemma SectorShades(f: real, s: real, v: real)
    requires 0.0 <= f < 1.0 && InUnit(s) && InUnit(v)
    ensures 0.0 <= Shade(v, s) <= v
    ensures 0.0 <= Shade(v, f * s) <= v
    ensures 0.0 <= Shade(v, (1.0 - f) * s) <= v
  {
    var fs, gs := f * s, (1.0 - f) * s;
    ScaleWithin(s, f);
    ScaleWithin(s, 1.0 - f);
    assert InUnit(fs) && InUnit(gs);
    ShadeWithin(v, s);
    ShadeWithin(v, fs);
    ShadeWithin(v, gs);
  }

  /** A colour whose components are `v` and values in [0, v] is bounded by
      `v` and reaches it. */
  lemma PermutedWithin(c: Rgb, v: real, p: real, q: real, t: real)
    requires 0.0 <= p <= v && 0.0 <= q <= v && 0.0 <= t <= v
    requires c == Rgb(v, t, p) || c == Rgb(q, v, p) || c == Rgb(p, v, t)
          || c == Rgb(p, q, v) || c == Rgb(t, p, v) || c == Rgb(v, p, q)
    ensures 0.0 <= c.r <= v && 0.0 <= c.g <= v && 0.0 <= c.b <= v
    ensures c.r == v || c.g == v || c.b == v
  {
  }

  /** For a non-negative hue the same bounds hold of the whole step. */
  lemma ComponentsBounded(h: real, s: real, v: real)
    requires 0.0 <= h && InUnit(s) && InUnit(v)
    ensures Components(h, s, v).Some?
    ensures var c := Components(h, s, v).value;
      && 0.0 <= c.r <= v && 0.0 <= c.g <= v && 0.0 <= c.b <= v
      && (c.r == v || c.g == v || c.b == v)
  {
    SectorRgbBounded(Sector(h), Fraction(h), s, v);
  }

  lemma ToByteInRange(x: real)
    requires InUnit(x)
    ensures IsByte(ToByte(x))
  {
    RoundBetween(x * 255.0, 0, 255);
  }

  /** With every input in [0, 1] the conversion is defined, every channel is a
      byte, and the largest colour channel is `round(v * 255)`. */
  lemma {:induction false} HsvChannelsInRange(h: real, s: real, v: real, a: real)
    requires InUnit(h) && InUnit(s) && InUnit(v) && InUnit(a)
    ensures ConvertHsvToRgb(h, s, v, a).Some?
    ensures InByteRange(ConvertHsvToRgb(h, s, v, a).value)
    ensures var c := ConvertHsvToRgb(h, s, v, a).value;
      Max3(c.r, c.g, c.b) == Round(v * 255.0)
  {
    ComponentsBounded(h, s, v);
    var c := Components(h, s, v).value;
    ToByteInRange(c.r);
    ToByteInRange(c.g);
    ToByteInRange(c.b);
    ToByteInRange(a);
    RoundMonotone(c.r * 255.0, v * 255.0);
    RoundMonotone(c.g * 255.0, v * 255.0);
    RoundMonotone(c.b * 255.0, v * 255.0);
  }

  /** Zero saturation gives a grey: all three colour channels are
      `round(v * 255)`, whatever the (non-negative) hue. */
  lemma HsvGreyWhenUnsaturated(h: real, v: real, a: real)
    requires 0.0 <= h
    ensures ConvertHsvToRgb(h, 0.0, v, a).Some?
    ensures var c := ConvertHsvToRgb(h, 0.0, v, a).value;
      c.r == c.g == c.b == Round(v * 255.0)
  {
  }

  /** A hue of 1 wraps onto a hue of 0 through `i % 6`. */
  lemma HsvHueOneIsHueZero(s: real, v: real, a: real)
    ensures ConvertHsvToRgb(1.0, s, v, a) == ConvertHsvToRgb(0.0, s, v, a)
  {
    assert SectorIndex(1.0) == 6 && Sector(1.0) == 0 && Fraction(1.0) == 0.0;
    assert SectorIndex(0.0) == 0 && Sector(0.0) == 0 && Fraction(0.0) == 0.0;
  }

  /** White, pure red and pure green at their reference hues. */
  lemma HsvReferenceValues()
    ensures ConvertHsvToRgb(0.0, 0.0, 1.0, 1.0) == Some(Rgba(255, 255, 255, 255))
    ensures ConvertHsvToRgb(0.0, 1.0, 1.0, 1.0) == Some(Rgba(255, 0, 0, 255))
    ensures ConvertHsvToRgb(1.0 / 3.0, 1.0, 1.0, 1.0) == Some(Rgba(0, 255, 0, 255))
  {
    assert SectorIndex(1.0 / 3.0) == 2;
    assert Round(255.0) == 255;
    assert Round(0.0) == 0;
  }

  /** A hue just below zero selects no sector: the colour channels are
      undefined. */
  lemma HsvNegativeHueUndefined()
    ensures ConvertHsvToRgb(-1.0 / 12.0, 1.0, 1.0, 1.0).None?
  {
    assert SectorIndex(-1.0 / 12.0) == -1;
  }
}

=== FILE: numbers.dfy ===
/** The few pieces of JavaScript number semantics the model relies on,
    stated over unbounded integers and exact reals. */
module Numbers {

  /** `Math.round(x)`: the nearest integer, halves rounded up. */
  function Round(x: real): (r: int)
    ensures r as real - 1.0 / 2.0 <= x < r as real + 1.0 / 2.0
  {
    (x + 1.0 / 2.0).Floor
  }

  /** `Math.ceil(x)`. */
  function Ceil(x: real): (r: int)
    ensures x <= r as real < x + 1.0
  {
    -((-x).Floor)
  }

  /** JavaScript's `a % 6`: truncating division, so the remainder takes the
      sign of the dividend (Dafny's `%` is Euclidean). */
  function JsRem6(a: int): (r: int)
    ensures (a - r) % 6 == 0
    ensures a >= 0 ==> 0 <= r < 6
    ensures a < 0 ==> -6 < r <= 0
    ensures a < 0 ==> r == (if a % 6 == 0 then 0 else a % 6 - 6)
  {
    if a >= 0 then a % 6 else -((-a) % 6)
  }

  /** Storing an integer into a `Uint8Array` element keeps it modulo 256. */
  function ToUint8(x: int): (r: int)
    ensures 0 <= r < 256
    ensures (x - r) % 256 == 0
    ensures 0 <= x < 256 ==> r == x
  {
    x % 256
  }

  function Max(a: int, b: int): (r: int)
    ensures r >= a && r >= b && (r == a || r == b)
  {
    if a >= b then a else b
  }

  /** Rounding is monotone. */
  lemma RoundMonotone(x: real, y: real)
    requires x <= y
    ensures Round(x) <= Round(y)
  {
  }

  /** Rounding an integer-valued real gives that integer back. */
  lemma RoundOfInt(n: int)
    ensures Round(n as real) == n
  {
  }

  /** A real between two integers rounds to an integer between them. */
  lemma RoundBetween(x: real, lo: int, hi: int)
    requires lo as real <= x <= hi as real
    ensures lo <= Round(x) <= hi
  {
    RoundMonotone(lo as real, x);
    RoundMonotone(x, hi as real);
    RoundOfInt(lo);
    RoundOfInt(hi);
  }

  predicate InUnit(x: real) {
    0.0 <= x <= 1.0
  }

  /** Scaling a non-negative quantity by a factor in [0, 1] keeps it between
      zero and itself. */
  lemma ScaleWithin(v: real, w: real)
    requires 0.0 <= v && InUnit(w)
    ensures 0.0 <= v * w <= v && v * w == w * v
  {
    assert v - v * w == v * (1.0 - w);
  }
}

=== FILE: ramp.dfy ===
/** `interpolateTransferFunction` of the volume: the sparse control points a
    candidate consists of, expanded into a ramp of 256 RGBA pixels stored as
    1024 bytes. Three loops share one pixel cursor: a leading fill below the
    first position, one interpolating loop per pair of neighbouring points,
    and a trailing fill up to pixel 255.

    Pixel `k` of the ramp is defined once, by `Pixel`, from the positions
    alone; the method proves that the shared cursor writes exactly that. */
module Ramp {
  import opened Wrappers
  import opened Numbers
  import opened Color

  /** Pixels of a ramp, and bytes of its `Uint8Array` (four per pixel). */
  const Pixels: nat := 256
  const RampBytes: nat := 1024

  /** The leading fill reads `tfArray[i]`; past the last point that entry is
      `undefined` and reading its `value` throws. */
  datatype RampError = MissingPoint(index: nat)

  // ---------------------------------------------------------------------
  // Colours between two points
  // ---------------------------------------------------------------------

  /** One channel at pixel `k` between `(p0, c0)` and `(p1, c1)`:
      `Math.round(c0 + (k - p0) / (p1 - p0) * (c1 - c0))`. */
  function Lerp(c0: int, c1: int, k: int, p0: int, p1: int): int
    requires p0 < p1
  {
    Round(c0 as real + ((k - p0) as real / (p1 - p0) as real) * (c1 - c0) as real)
  }

  /** The colour at pixel `k` between two control points. */
  function Blend(a: ControlPoint, b: ControlPoint, k: int): Rgba
    requires a.position < b.position
  {
    Rgba(Lerp(a.value.r, b.value.r, k, a.position, b.position),
         Lerp(a.value.g, b.value.g, k, a.position, b.position),
         Lerp(a.value.b, b.value.b, k, a.position, b.position),
         Lerp(a.value.a, b.value.a, k, a.position, b.position))
  }

  predicate Between(x: int, c0: int, c1: int) {
    (c0 <= x <= c1) || (c1 <= x <= c0)
  }

  /** An interpolated channel lies between its two end channels, and at the
      first position it is the first channel exactly. */
  lemma LerpBetween(c0: int, c1: int, k: int, p0: int, p1: int)
    requires p0 <= k <= p1 && p0 < p1
    ensures Between(Lerp(c0, c1, k, p0, p1), c0, c1)
    ensures k == p0 ==> Lerp(c0, c1, k, p0, p1) == c0
  {
    var f := (k - p0) as real / (p1 - p0) as real;
    FractionInUnit(k, p0, p1);
    var x := c0 as real + f * (c1 - c0) as real;
    MixBetween(c0, c1, f);
    if c0 <= c1 {
      RoundBetween(x, c0, c1);
    } else {
      RoundBetween(x, c1, c0);
    }
    if k == p0 {
      RoundOfInt(c0);
    }
  }

  /** How far pixel `k` lies from `p0` toward `p1`, as a fraction. */
  lemma FractionInUnit(k: int, p0: int, p1: int)
    requires p0 <= k <= p1 && p0 < p1
    ensures InUnit((k - p0) as real / (p1 - p0) as real)
    ensures k == p0 ==> (k - p0) as real / (p1 - p0) as real == 0.0
  {
  }

  /** Moving a fraction in [0, 1] of the way from `c0` to `c1` stays between
      them, and moving no way stays at `c0`. */
  lemma MixBetween(c0: int, c1: int, f: real)
    requires InUnit(f)
    ensures c0 <= c1 ==> c0 as real <= c0 as real + f * (c1 - c0) as real <= c1 as real
    ensures c1 < c0 ==> c1 as real <= c0 as real + f * (c1 - c0) as real <= c0 as real
    ensures f == 0.0 ==> c0 as real + f * (c1 - c0) as real == c0 as real
  {
    var d := (c1 - c0) as real;
    if c0 <= c1 {
      ScaleWithin(d, f);
    } else {
      ScaleWithin(-d, f);
      assert f * d == -(f * -d);
    }
  }

  lemma BlendBetween(a: ControlPoint, b: ControlPoint, k: int)
    requires a.position <= k <= b.position && a.position < b.position
    ensures var c := Blend(a, b, k);
      Between(c.r, a.value.r, b.value.r) && Between(c.g, a.value.g, b.value.g)
      && Between(c.b, a.value.b, b.value.b) && Between(c.a, a.value.a, b.value.a)
    ensures k == a.position ==> Blend(a, b, k) == a.value
  {
    LerpBetween(a.value.r, b.value.r, k, a.position, b.position);
    LerpBetween(a.value.g, b.value.g, k, a.position, b.position);
    LerpBetween(a.value.b, b.value.b, k, a.position, b.position);
    LerpBetween(a.value.a, b.value.a, k, a.position, b.position);
  }

  // ---------------------------------------------------------------------
  // Which loop writes pixel k
  // ---------------------------------------------------------------------

  /** The first point at or after `from` whose position lies above pixel
      `k`. */
  function FirstAbove(tf: TransferFunction, k: int, from: nat): (r: Option<nat>)
    ensures r.Some? ==> from <= r.value < |tf| && tf[r.value].position > k
    ensures r.Some? ==> forall t :: from <= t < r.value ==> tf[t].position <= k
    ensures r.None? ==> forall t :: from <= t < |tf| ==> tf[t].position <= k
    decreases |tf| - from
  {
    if from >= |tf| then None
    else if tf[from].position > k then Some(from)
    else FirstAbove(tf, k, from + 1)
  }

  /** Pixel `k` at or past the first position: the pair loop whose right
      point is the first one above `k` writes it, and when no point lies
      above `k` the trailing fill gives it the last colour. */
  function SegmentPixel(tf: TransferFunction, k: int): Rgba
    requires |tf| > 0 && tf[0].position <= k
  {
    match FirstAbove(tf, k, 1)
    case Some(m) => Blend(tf[m - 1], tf[m], k)
    case None => tf[|tf| - 1].value
  }

  /** Pixel `k` as written: below the first position the leading fill copies
      the colour of point `k`. */
  function Pixel(tf: TransferFunction, k: int): Rgba
    requires |tf| > 0 && (k < tf[0].position ==> 0 <= k < |tf|)
  {
    if k < tf[0].position then tf[k].value else SegmentPixel(tf, k)
  }

  /** Pixel `k` as evidently intended: below the first position the leading
      fill copies the first colour. */
  function CorrectedPixel(tf: TransferFunction, k: int): Rgba
    requires |tf| > 0
  {
    if k < tf[0].position then tf[0].value else SegmentPixel(tf, k)
  }

  /** Channel `c` of a colour, in the order the bytes are stored. */
  function Channel(x: Rgba, c: int): int {
    if c == 0 then x.r else if c == 1 then x.g else if c == 2 then x.b else x.a
  }

  /** A colour as it reads back after its channels are stored in a
      `Uint8Array`. */
  function Stored(x: Rgba): (r: Rgba)
    ensures InByteRange(r)
    ensures InByteRange(x) ==> r == x
  {
    Rgba(ToUint8(x.r), ToUint8(x.g), ToUint8(x.b), ToUint8(x.a))
  }

  /** The four bytes of pixel `k`. */
  function PixelOf(bytes: seq<int>, k: nat): Rgba
    requires 4 * k + 3 < |bytes|
  {
    Rgba(bytes[4 * k], bytes[4 * k + 1], bytes[4 * k + 2], bytes[4 * k + 3])
  }

  /** The byte array of a sequence of pixels. */
  function Bytes(px: seq<Rgba>): (r: seq<int>)
    ensures |r| == 4 * |px|
    ensures forall k {:trigger PixelOf(r, k)} :: 0 <= k < |px| ==> PixelOf(r, k) == Stored(px[k])
  {
    var r := seq(4 * |px|, n requires 0 <= n < 4 * |px| => ToUint8(Channel(px[n / 4], n % 4)));
    assert forall k :: 0 <= k < |px| ==> PixelOf(r, k) == Stored(px[k]) by {
      forall k | 0 <= k < |px|
        ensures PixelOf(r, k) == Stored(px[k])
      {
        ByteIndex(k, 0);
        ByteIndex(k, 1);
        ByteIndex(k, 2);
        ByteIndex(k, 3);
      }
    }
    r
  }

  /** Byte `4 * k + c` is channel `c` of pixel `k`. */
  lemma ByteIndex(k: nat, c: nat)
    requires c < 4
    ensures (4 * k + c) / 4 == k && (4 * k + c) % 4 == c
  {
  }

  /** Byte `4 * k + c` of a ramp is channel `c` of its pixel `k`. */
  lemma ByteOfPixel(b: seq<int>, k: nat, c: nat)
    requires 4 * k + 3 < |b| && c < 4
    ensures b[4 * k + c] == Channel(PixelOf(b, k), c)
  {
  }

  // ---------------------------------------------------------------------
  // The ramp
  // ---------------------------------------------------------------------

  /** The leading fill stops before it reads past the last point. */
  predicate LeadFits(tf: TransferFunction)
    requires |tf| > 0
  {
    tf[0].position <= |tf|
  }

  /** `interpolateTransferFunction` as a function of its argument. */
  function Ramp(tf: TransferFunction): (r: Result<seq<int>, RampError>)
    ensures |tf| == 0 ==> r == Success([])
    ensures r.Failure? <==> |tf| > 0 && tf[0].position > |tf|
    ensures r.Failure? ==> r.error == MissingPoint(|tf|)
    ensures r.Success? && |tf| > 0 ==> |r.value| == RampBytes
    ensures r.Success? && |tf| > 0 ==> forall k :: 0 <= k < Pixels ==> PixelOf(r.value, k) == Stored(Pixel(tf, k))
  {
    if |tf| == 0 then Success([])
    else if !LeadFits(tf) then Failure(MissingPoint(|tf|))
    else Success(Bytes(seq(Pixels, k requires 0 <= k < Pixels => Pixel(tf, k))))
  }

  /** The ramp with the leading fill corrected; it never fails. */
  function CorrectedRamp(tf: TransferFunction): (r: seq<int>)
    ensures |tf| == 0 ==> r == []
    ensures |tf| > 0 ==> |r| == RampBytes
    ensures |tf| > 0 ==> forall k :: 0 <= k < Pixels ==> PixelOf(r, k) == Stored(CorrectedPixel(tf, k))
  {
    if |tf| == 0 then []
    else Bytes(seq(Pixels, k requires 0 <= k < Pixels => CorrectedPixel(tf, k)))
  }

  // ---------------------------------------------------------------------
  // The three loops
  // ---------------------------------------------------------------------

  /** The cursor after the leading fill (`j == 0`) and after the pair loop
      ending at point `j`: it never moves back. */
  function Cursor(tf: TransferFunction, j: nat): (c: int)
    requires j < |tf|
    ensures c >= 0 && c >= tf[0].position
    ensures forall t :: 0 <= t <= j ==> tf[t].position <= c
    ensures c == Max(0, tf[0].position) || exists t :: 1 <= t <= j && c == tf[t].position
  {
    if j == 0 then Max(0, tf[0].position) else Max(Cursor(tf, j - 1), tf[j].position)
  }

  /** Pixels the pair loop of points `j`, `j + 1` writes are the ones whose
      first point above lies at `j + 1`. */
  lemma PairLoopOwns(tf: TransferFunction, j: nat, k: int)
    requires j + 1 < |tf| && Cursor(tf, j) <= k < tf[j + 1].position
    ensures FirstAbove(tf, k, 1) == Some(j + 1)
    ensures Pixel(tf, k) == Blend(tf[j], tf[j + 1], k)
  {
    assert forall t :: 0 <= t <= j ==> tf[t].position <= k;
  }

  /** Pixels at or past the final cursor belong to the trailing fill. */
  lemma TrailOwns(tf: TransferFunction, k: int)
    requires |tf| > 0 && Cursor(tf, |tf| - 1) <= k
    ensures FirstAbove(tf, k, 1) == None
    ensures Pixel(tf, k) == tf[|tf| - 1].value
  {
    assert forall t :: 0 <= t < |tf| ==> tf[t].position <= k;
  }

  /** The four bytes of pixel `k` hold the stored colour `x`. */
  ghost predicate Holds(a: array<int>, k: int, x: Rgba)
    requires a.Length == RampBytes && 0 <= k < Pixels
    reads a
  {
    PixelOf(a[..], k) == Stored(x)
  }

  /** The four stores of one pixel at byte offset `filled`; the typed array
      ignores stores past its end. */
  method StorePixel(a: array<int>, filled: int, x: Rgba)
    requires a.Length == RampBytes && filled >= 0 && filled % 4 == 0
    modifies a
    ensures filled < RampBytes ==> Holds(a, filled / 4, x)
    ensures forall n :: 0 <= n < RampBytes && !(filled <= n < filled + 4) ==> a[n] == old(a[n])
  {
    if filled < RampBytes {
      a[filled] := ToUint8(x.r);
      a[filled + 1] := ToUint8(x.g);
      a[filled + 2] := ToUint8(x.b);
      a[filled + 3] := ToUint8(x.a);
    }
  }

  /** A store at pixel `i` leaves every pixel below it as it was. */
  lemma PixelsBelowKept(b0: seq<int>, b1: seq<int>, i: int)
    requires |b0| == |b1| == RampBytes && 0 <= i
    requires forall n :: 0 <= n < RampBytes && !(4 * i <= n < 4 * i + 4) ==> b1[n] == b0[n]
    ensures forall k :: 0 <= k < i && k < Pixels ==> PixelOf(b1, k) == PixelOf(b0, k)
  {
    forall k | 0 <= k < i && k < Pixels
      ensures PixelOf(b1, k) == PixelOf(b0, k)
    {
      assert 4 * k + 3 < 4 * i;
    }
  }

  /** Storing pixel `i`'s own colour after pixels `0..i-1` hold theirs makes
      pixels `0..i` hold theirs. */
  lemma PrefixExtends(tf: TransferFunction, b0: seq<int>, b1: seq<int>, i: int, x: Rgba)
    requires |tf| > 0 && (i < |tf| || LeadFits(tf)) && 0 <= i
    requires |b0| == |b1| == RampBytes
    requires forall k :: 0 <= k < i && k < Pixels ==> PixelOf(b0, k) == Stored(Pixel(tf, k))
    requires forall n :: 0 <= n < RampBytes && !(4 * i <= n < 4 * i + 4) ==> b1[n] == b0[n]
    requires i < Pixels ==> PixelOf(b1, i) == Stored(x) && x == Pixel(tf, i)
    ensures forall k :: 0 <= k < i + 1 && k < Pixels ==> PixelOf(b1, k) == Stored(Pixel(tf, k))
  {
    PixelsBelowKept(b0, b1, i);
  }

  /** The four stores of pixel `i` with its own colour: pixels `0..i` then
      hold theirs. */
  method StoreNext(tf: TransferFunction, a: array<int>, filled: int, i: int, x: Rgba)
    requires |tf| > 0 && (i < |tf| || LeadFits(tf)) && 0 <= i && filled == 4 * i
    requires a.Length == RampBytes && (i < Pixels ==> x == Pixel(tf, i))
    requires forall k :: 0 <= k < i && k < Pixels ==> Holds(a, k, Pixel(tf, k))
    modifies a
    ensures forall k :: 0 <= k < i + 1 && k < Pixels ==> Holds(a, k, Pixel(tf, k))
  {
    ghost var before := a[..];
    StorePixel(a, filled, x);
    assert filled / 4 == i;
    PrefixExtends(tf, before, a[..], i, x);
  }

  /** The leading fill: pixels below the first position take the colour of
      the point with their own index. It stops early, with `i == |tf|`, at
      the first pixel whose point does not exist. */
  method LeadingFill(tf: TransferFunction, a: array<int>) returns (i: int)
    requires |tf| > 0 && a.Length == RampBytes
    modifies a
    ensures 0 <= i <= Max(0, tf[0].position) && i <= |tf|
    ensures i < tf[0].position ==> i == |tf|
    ensures forall k :: 0 <= k < i && k < Pixels ==> Holds(a, k, Pixel(tf, k))
  {
    var filled := 0;
    i := 0;
    while i < tf[0].position
      invariant 0 <= i <= Max(0, tf[0].position) && i <= |tf| && filled == 4 * i
      invariant forall k :: 0 <= k < i && k < Pixels ==> Holds(a, k, Pixel(tf, k))
      decreases tf[0].position - i
    {
      if i >= |tf| {
        break;
      }
      StoreNext(tf, a, filled, i, tf[i].value);
      filled := filled + 4;
      i := i + 1;
    }
  }

  /** The loop between points `j` and `j + 1`: from the cursor up to the
      position of point `j + 1`, interpolated. */
  method PairLoop(tf: TransferFunction, a: array<int>, j: nat, from: int) returns (i: int)
    requires j + 1 < |tf| && LeadFits(tf) && a.Length == RampBytes && from == Cursor(tf, j)
    requires forall k :: 0 <= k < from && k < Pixels ==> Holds(a, k, Pixel(tf, k))
    modifies a
    ensures i == Cursor(tf, j + 1)
    ensures forall k :: 0 <= k < i && k < Pixels ==> Holds(a, k, Pixel(tf, k))
  {
    i := from;
    var filled := 4 * i;
    while i < tf[j + 1].position
      invariant Cursor(tf, j) <= i <= Cursor(tf, j + 1) && filled == 4 * i
      invariant forall k :: 0 <= k < i && k < Pixels ==> Holds(a, k, Pixel(tf, k))
      decreases tf[j + 1].position - i
    {
      PairLoopOwns(tf, j, i);
      StoreNext(tf, a, filled, i, Blend(tf[j], tf[j + 1], i));
      filled := filled + 4;
      i := i + 1;
    }
  }

  /** The trailing fill: from the cursor up to pixel 255, the last colour. */
  method TrailFill(tf: TransferFunction, a: array<int>, from: int)
    requires |tf| > 0 && LeadFits(tf) && a.Length == RampBytes && from == Cursor(tf, |tf| - 1)
    requires forall k :: 0 <= k < from && k < Pixels ==> Holds(a, k, Pixel(tf, k))
    modifies a
    ensures forall k :: 0 <= k < Pixels ==> Holds(a, k, Pixel(tf, k))
  {
    var i := from;
    var filled := 4 * i;
    while i < Pixels
      invariant from <= i && filled == 4 * i
      invariant forall k :: 0 <= k < i && k < Pixels ==> Holds(a, k, Pixel(tf, k))
      decreases Pixels - i
    {
      TrailOwns(tf, i);
      StoreNext(tf, a, filled, i, tf[|tf| - 1].value);
      filled := filled + 4;
      i := i + 1;
    }
  }

  /** A byte sequence whose every pixel reads back as the stored colour of
      `px` is the byte array of `px`. */
  lemma BytesDetermined(b: seq<int>, px: seq<Rgba>)
    requires |b| == 4 * |px|
    requires forall k {:trigger PixelOf(b, k)} :: 0 <= k < |px| ==> PixelOf(b, k) == Stored(px[k])
    ensures b == Bytes(px)
  {
    var want := Bytes(px);
    forall n | 0 <= n < |b|
      ensures b[n] == want[n]
    {
      SameByte(b, want, n);
    }
  }

  /** Two byte sequences that agree on the pixel holding byte `n` agree on
      byte `n`. */
  lemma SameByte(b: seq<int>, b': seq<int>, n: nat)
    requires n < |b| == |b'| && |b| % 4 == 0
    ensures 4 * (n / 4) + 3 < |b|
    ensures PixelOf(b, n / 4) == PixelOf(b', n / 4) ==> b[n] == b'[n]
  {
    var k, c := n / 4, n % 4;
    assert n == 4 * k + c;
    ByteOfPixel(b, k, c);
    ByteOfPixel(b', k, c);
  }

  /** `interpolateTransferFunction(tfArray)`: the leading fill, one loop per
      neighbouring pair, and the trailing fill, all advancing one pixel
      cursor. */
  method InterpolateTransferFunction(tf: TransferFunction) returns (r: Result<seq<int>, RampError>)
    ensures r == Ramp(tf)
  {
    if |tf| == 0 {
      return Success([]);
    }
    var a := new int[RampBytes](_ => 0);
    var i := LeadingFill(tf, a);
    if i < tf[0].position {
      return Failure(MissingPoint(i));
    }
    for j := 0 to |tf| - 1
      invariant i == Cursor(tf, j) && LeadFits(tf)
      invariant forall k :: 0 <= k < i && k < Pixels ==> Holds(a, k, Pixel(tf, k))
    {
      i := PairLoop(tf, a, j, i);
    }
    TrailFill(tf, a, i);
    var px := seq(Pixels, k requires 0 <= k < Pixels => Pixel(tf, k));
    BytesDetermined(a[..], px);
    r := Success(a[..]);
  }

  // ---------------------------------------------------------------------
  // Properties of the ramp
  // ---------------------------------------------------------------------

  /** Positions never decrease (the bins arrive in value order). */
  predicate NonDecreasing(tf: TransferFunction) {
    forall a, b :: 0 <= a <= b < |tf| ==> tf[a].position <= tf[b].position
  }

  predicate StrictlyIncreasing(tf: TransferFunction) {
    forall a, b :: 0 <= a < b < |tf| ==> tf[a].position < tf[b].position
  }

  /** At the position of a point, past the leading fill, the ramp holds that
      point's colour: the fraction toward the next point is zero there. */
  lemma {:induction false} SegmentAtControlPoint(tf: TransferFunction, m: nat)
    requires StrictlyIncreasing(tf) && m < |tf|
    ensures SegmentPixel(tf, tf[m].position) == tf[m].value
  {
    var k := tf[m].position;
    if m + 1 < |tf| {
      assert FirstAbove(tf, k, 1) == Some(m + 1) by {
        assert forall t :: 0 <= t <= m ==> tf[t].position <= k;
      }
      BlendBetween(tf[m], tf[m + 1], k);
    } else {
      assert FirstAbove(tf, k, 1) == None by {
        assert forall t :: 0 <= t < |tf| ==> tf[t].position <= k;
      }
    }
  }

  /** Between two neighbouring points the ramp is their interpolation. */
  lemma {:induction false} SegmentBetween(tf: TransferFunction, j: nat, k: int)
    requires NonDecreasing(tf) && j + 1 < |tf| && tf[j].position <= k < tf[j + 1].position
    ensures tf[0].position <= k
    ensures SegmentPixel(tf, k) == Blend(tf[j], tf[j + 1], k)
  {
    assert FirstAbove(tf, k, 1) == Some(j + 1) by {
      assert forall t :: 0 <= t <= j ==> tf[t].position <= k;
    }
  }

  /** From the last position on, the ramp holds the last colour. */
  lemma {:induction false} SegmentTail(tf: TransferFunction, k: int)
    requires NonDecreasing(tf) && |tf| > 0 && tf[|tf| - 1].position <= k
    ensures tf[0].position <= k
    ensures SegmentPixel(tf, k) == tf[|tf| - 1].value
  {
    assert FirstAbove(tf, k, 1) == None by {
      assert forall t :: 0 <= t < |tf| ==> tf[t].position <= k;
    }
  }

  /** For strictly increasing positions inside the ramp and byte colours,
      the ramp at each point's position is exactly that point's colour. */
  lemma RampHitsControlPoints(tf: TransferFunction, m: nat)
    requires StrictlyIncreasing(tf) && m < |tf| && 0 <= tf[m].position < Pixels
    requires InByteRange(tf[m].value) && Ramp(tf).Success?
    ensures PixelOf(Ramp(tf).value, tf[m].position) == tf[m].value
    ensures PixelOf(CorrectedRamp(tf), tf[m].position) == tf[m].value
  {
    SegmentAtControlPoint(tf, m);
    assert m > 0 ==> tf[0].position < tf[m].position;
  }

  /** Between neighbouring points `j` and `j + 1` each pixel is the rounded
      interpolation of their colours, and each channel lies between theirs. */
  lemma RampBetweenNeighbours(tf: TransferFunction, j: nat, k: int)
    requires NonDecreasing(tf) && j + 1 < |tf| && tf[j].position <= k < tf[j + 1].position
    requires 0 <= k < Pixels && Ramp(tf).Success?
    requires InByteRange(tf[j].value) && InByteRange(tf[j + 1].value)
    ensures var c := PixelOf(Ramp(tf).value, k);
      && c == Blend(tf[j], tf[j + 1], k)
      && Between(c.r, tf[j].value.r, tf[j + 1].value.r)
      && Between(c.g, tf[j].value.g, tf[j + 1].value.g)
      && Between(c.b, tf[j].value.b, tf[j + 1].value.b)
      && Between(c.a, tf[j].value.a, tf[j + 1].value.a)
    ensures PixelOf(CorrectedRamp(tf), k) == PixelOf(Ramp(tf).value, k)
  {
    SegmentBetween(tf, j, k);
    BlendBetween(tf[j], tf[j + 1], k);
  }

  /** Pixels from the last position through 255 hold the last colour. */
  lemma RampTailIsLast(tf: TransferFunction, k: int)
    requires NonDecreasing(tf) && |tf| > 0 && tf[|tf| - 1].position <= k < Pixels && 0 <= k
    requires Ramp(tf).Success?
    ensures PixelOf(Ramp(tf).value, k) == Stored(tf[|tf| - 1].value)
    ensures PixelOf(CorrectedRamp(tf), k) == Stored(tf[|tf| - 1].value)
  {
    SegmentTail(tf, k);
  }

  /** As written, a pixel below the first position takes the colour of the
      point with its own index; that is the first colour only when the first
      position is at most 1. */
  lemma RampLeadCopiesOwnIndex(tf: TransferFunction, k: nat)
    requires |tf| > 0 && k < tf[0].position && k < Pixels && Ramp(tf).Success?
    ensures k < |tf|
    ensures PixelOf(Ramp(tf).value, k) == Stored(tf[k].value)
    ensures tf[0].position <= 1 ==> PixelOf(Ramp(tf).value, k) == Stored(tf[0].value)
  {
    assert PixelOf(Ramp(tf).value, k) == Stored(Pixel(tf, k));
    if tf[0].position <= 1 {
      assert k == 0;
    }
  }

  /** The leading fill as written: with points at 2 and 3, pixel 1 gets the
      second point's colour instead of the first's; and a single point at 5
      makes the fill read a point that does not exist. */
  lemma LeadingFillCounterexample()
    ensures var tf := [ControlPoint(2, Rgba(255, 0, 0, 255)), ControlPoint(3, Rgba(0, 0, 255, 255))];
      && Ramp(tf).Success?
      && PixelOf(Ramp(tf).value, 1) == Rgba(0, 0, 255, 255)
      && PixelOf(Ramp(tf).value, 1) != tf[0].value
      && PixelOf(CorrectedRamp(tf), 1) == tf[0].value
    ensures Ramp([ControlPoint(5, Rgba(255, 0, 0, 255))]) == Failure(MissingPoint(1))
  {
    var tf := [ControlPoint(2, Rgba(255, 0, 0, 255)), ControlPoint(3, Rgba(0, 0, 255, 255))];
    assert Pixel(tf, 1) == tf[1].value;
    assert CorrectedPixel(tf, 1) == tf[0].value;
  }

  /** Corrected, every pixel below the first position holds the first
      colour, whatever the number of points, and past the first position the
      corrected ramp agrees with the ramp as written. */
  lemma CorrectedLeadingFill(tf: TransferFunction, k: nat)
    requires |tf| > 0 && k < Pixels
    ensures k < tf[0].position ==> PixelOf(CorrectedRamp(tf), k) == Stored(tf[0].value)
    ensures tf[0].position <= k && Ramp(tf).Success? ==> PixelOf(CorrectedRamp(tf), k) == PixelOf(Ramp(tf).value, k)
  {
  }
}

=== FILE: render_context.dfy ===
/** The orchestration of the rendering context: one main canvas and eight
    preview canvases, each with its own renderer and tone mapper. The model
    keeps what decides the control flow: which renderers exist, the dirty
    flags, the matrices each renderer last received, how often each was
    reset or rendered, and the byte ramp each preview holds.

    Renderers, tone mappers and GL contexts are records or presence flags;
    the matrices are symbolic (the model matrix is named by the scale and
    translation it is built from, the camera's by opaque tokens). */
module RenderContext {
  import opened Wrappers
  import opened Numbers
  import opened Color
  import opened Ramp

  /** Previews per context, and their size relative to the main canvas. */
  const PreviewCount: nat := 8
  const PreviewScale: real := 0.25

  datatype Vec3 = Vec3(x: real, y: real, z: real)

  /** The model matrix: translation times scale times the centring shift. */
  datatype ModelMatrix = ModelMatrix(scale: Vec3, translation: Vec3)

  /** The camera's dirty flag and tokens for its view and projection. */
  datatype Camera = Camera(isDirty: bool, view: nat, projection: nat)

  datatype Mvp = Mvp(model: ModelMatrix, view: nat, projection: nat)

  /** A renderer: its kind, the matrices it last received (none when new),
      how often it was reset and rendered, and the ramp it last took. */
  datatype Renderer = Renderer(kind: string, mvp: Option<Mvp>, resets: nat, frames: nat, ramp: Option<seq<int>>)

  datatype Column = Left | Right

  /** One preview canvas with its settings. `ramp` is its
      `transferFunction`, absent until one is assigned. */
  datatype Preview = Preview(
    i: nat,
    column: Column,
    width: int,
    height: int,
    hasGl: bool,
    restorable: bool,
    hasVolume: bool,
    renderer: Option<Renderer>,
    hasToneMapper: bool,
    ramp: Option<seq<int>>)

  datatype Context = Context(
    resolution: real,
    filter: string,
    hasGl: bool,
    restorable: bool,
    camera: Camera,
    scale: Vec3,
    translation: Vec3,
    transformDirty: bool,
    hasVolume: bool,
    renderer: Option<Renderer>,
    hasToneMapper: bool,
    previews: seq<Preview>)

  function NewRenderer(kind: string): (r: Renderer)
    ensures r.mvp.None? && r.resets == 0 && r.frames == 0 && r.ramp.None?
  {
    Renderer(kind, None, 0, 0, None)
  }

  function Reset(rd: Renderer): (r: Renderer)
    ensures r.resets == rd.resets + 1 && r.mvp == rd.mvp && r.ramp == rd.ramp && r.frames == rd.frames
  {
    rd.(resets := rd.resets + 1)
  }

  // ---------------------------------------------------------------------
  // Previews
  // ---------------------------------------------------------------------

  /** Side of a preview canvas: `Math.ceil(resolution * 0.25)`. */
  function PreviewSide(resolution: real): int {
    Ceil(resolution * PreviewScale)
  }

  /** `_addPreviews(column, startI)`: four previews numbered from `startI`,
      each with a fresh restorable GL context and a volume, and no renderer,
      tone mapper or ramp yet. */
  function AddPreviews(column: Column, startI: nat, resolution: real): (r: seq<Preview>)
    ensures |r| == PreviewCount / 2
    ensures forall k :: 0 <= k < |r| ==> r[k].i == startI + k && r[k].column == column
  {
    seq(PreviewCount / 2, k requires 0 <= k < PreviewCount / 2 =>
      Preview(startI + k, column, PreviewSide(resolution), PreviewSide(resolution), true, true, true, None, false, None))
  }

  /** The previews of the constructor: the left column, then the right. */
  function CreatePreviews(resolution: real): (r: seq<Preview>)
    ensures |r| == PreviewCount
  {
    AddPreviews(Left, 0, resolution) + AddPreviews(Right, PreviewCount / 2, resolution)
  }

  /** The constructor, up to its closing `_updateMvpInverseMatrix`: the
      transformation starts dirty, no renderer or tone mapper is chosen. */
  function NewContext(resolution: real, camera: Camera): (c: Context)
    ensures |c.previews| == PreviewCount && !c.transformDirty && !c.camera.isDirty
    ensures c.renderer.None? && forall k :: 0 <= k < PreviewCount ==> c.previews[k].renderer.None?
  {
    var c := Context(resolution, "linear", true, true, camera, Vec3(1.0, 1.0, 1.0), Vec3(0.0, 0.0, 0.0),
                     true, true, None, false, CreatePreviews(resolution));
    UpdateMvpInverseMatrix(c)
  }

  // ---------------------------------------------------------------------
  // Matrices and dirty flags
  // ---------------------------------------------------------------------

  function CurrentMvp(c: Context): Mvp {
    Mvp(ModelMatrix(c.scale, c.translation), c.camera.view, c.camera.projection)
  }

  /** `_updateMvpInverseMatrix`: nothing when neither flag is set;
      otherwise both flags are cleared, and the main renderer and every
      preview renderer that exists take the same matrices and are reset. */
  function UpdateMvpInverseMatrix(c: Context): (r: Context)
    ensures !r.camera.isDirty && !r.transformDirty
    ensures |r.previews| == |c.previews|
    ensures !c.camera.isDirty && !c.transformDirty ==> r == c
  {
    if !c.camera.isDirty && !c.transformDirty then c
    else
      var m := CurrentMvp(c);
      var upd := (rd: Renderer) => Reset(rd.(mvp := Some(m)));
      c.(camera := c.camera.(isDirty := false),
         transformDirty := false,
         renderer := if c.renderer.Some? then Some(upd(c.renderer.value)) else None,
         previews := seq(|c.previews|, k requires 0 <= k < |c.previews| =>
           var p := c.previews[k];
           if p.renderer.Some? then p.(renderer := Some(upd(p.renderer.value))) else p))
  }

  /** `setScale`: the scale changes and the transformation is dirty. */
  function SetScale(c: Context, v: Vec3): (r: Context)
    ensures r.transformDirty && r.scale == v
  {
    c.(scale := v, transformDirty := true)
  }

  /** `setTranslation`: the translation changes and the transformation is
      dirty. */
  function SetTranslation(c: Context, v: Vec3): (r: Context)
    ensures r.transformDirty && r.translation == v
  {
    c.(translation := v, transformDirty := true)
  }

  /** `chooseRenderer`: a new main renderer of the kind, a new renderer of
      the kind on every preview, and the transformation dirty so that the
      next frame hands them the matrices. */
  function ChooseRenderer(c: Context, kind: string): (r: Context)
    ensures r.transformDirty && |r.previews| == |c.previews|
    ensures r.renderer == Some(NewRenderer(kind))
    ensures forall k :: 0 <= k < |c.previews| ==> r.previews[k].renderer == Some(NewRenderer(kind))
  {
    c.(renderer := Some(NewRenderer(kind)),
       transformDirty := true,
       previews := seq(|c.previews|, k requires 0 <= k < |c.previews| =>
         c.previews[k].(renderer := Some(NewRenderer(kind)))))
  }

  /** `chooseToneMapper`: a new tone mapper on the main canvas and on every
      preview; renderers, ramps and contexts stay as they are. */
  function ChooseToneMapper(c: Context): (r: Context)
    ensures r == c.(hasToneMapper := true, previews := r.previews)
    ensures |r.previews| == |c.previews|
    ensures forall k :: 0 <= k < |c.previews| ==> r.previews[k] == c.previews[k].(hasToneMapper := true)
  {
    c.(hasToneMapper := true,
       previews := seq(|c.previews|, k requires 0 <= k < |c.previews| => c.previews[k].(hasToneMapper := true)))
  }

  /** `setFilter`: with a main volume the main renderer (if any) is reset;
      each preview whose volume and renderer exist is reset. */
  function SetFilter(c: Context, f: string): (r: Context)
    ensures r.filter == f && |r.previews| == |c.previews|
    ensures r == c.(filter := f, renderer := r.renderer, previews := r.previews)
    ensures c.hasVolume && c.renderer.Some? ==> r.renderer == Some(Reset(c.renderer.value))
    ensures !(c.hasVolume && c.renderer.Some?) ==> r.renderer == c.renderer
    ensures forall k :: 0 <= k < |c.previews| ==>
      && (c.previews[k].hasVolume && c.previews[k].renderer.Some? ==>
            r.previews[k] == c.previews[k].(renderer := Some(Reset(c.previews[k].renderer.value))))
      && (!(c.previews[k].hasVolume && c.previews[k].renderer.Some?) ==> r.previews[k] == c.previews[k])
  {
    c.(filter := f,
       renderer := if c.hasVolume && c.renderer.Some? then Some(Reset(c.renderer.value)) else c.renderer,
       previews := seq(|c.previews|, k requires 0 <= k < |c.previews| =>
         var p := c.previews[k];
         if p.hasVolume && p.renderer.Some? then p.(renderer := Some(Reset(p.renderer.value))) else p))
  }

  // ---------------------------------------------------------------------
  // Context loss
  // ---------------------------------------------------------------------

  /** The canvas an event is delivered to. */
  datatype Canvas = MainCanvas | PreviewCanvas(i: nat)

  /** `_webglcontextlostHandler`: whether `preventDefault` is called. A
      preview decides by its own flag, the main canvas by the context's. */
  function ContextLost(c: Context, target: Canvas): (prevent: bool)
    requires target.PreviewCanvas? ==> target.i < |c.previews|
  {
    match target
    case MainCanvas => c.restorable
    case PreviewCanvas(i) => c.previews[i].restorable
  }

  /** `_webglcontextrestoredHandler`: `_initPreviewGL(i)` for a preview,
      `_initGL` for the main canvas; either makes the canvas's context
      usable and restorable again. */
  function ContextRestored(c: Context, target: Canvas): (r: Context)
    requires target.PreviewCanvas? ==> target.i < |c.previews|
    ensures |r.previews| == |c.previews|
    ensures target.MainCanvas? ==> r == c.(hasGl := true, restorable := true)
    ensures target.PreviewCanvas? ==>
      && r == c.(previews := r.previews)
      && r.previews[target.i] == c.previews[target.i].(hasGl := true, restorable := true)
      && forall k :: 0 <= k < |c.previews| && k != target.i ==> r.previews[k] == c.previews[k]
  {
    match target
    case MainCanvas => c.(hasGl := true, restorable := true)
    case PreviewCanvas(i) => c.(previews := c.previews[i := c.previews[i].(hasGl := true, restorable := true)])
  }

  // ---------------------------------------------------------------------
  // Drawing
  // ---------------------------------------------------------------------

  /** A preview has what `drawPreviews` needs: a context, a renderer and a
      tone mapper. */
  predicate Drawable(p: Preview) {
    p.hasGl && p.renderer.Some? && p.hasToneMapper
  }

  /** One preview drawn: with a ramp, the renderer takes the ramp and renders
      a frame; the tone mapper's output is then composited either way. */
  function DrawPreview(p: Preview): (r: Preview)
    requires Drawable(p)
    ensures Drawable(r) && r.ramp == p.ramp && r.i == p.i
  {
    if p.ramp.Some? then p.(renderer := Some(p.renderer.value.(ramp := p.ramp, frames := p.renderer.value.frames + 1)))
    else p
  }

  /** `drawPreviews` from preview `k` on: the previews drawn, and the indices
      composited. The loop returns at the first preview that is not
      drawable. */
  function DrawFrom(ps: seq<Preview>, k: nat): (r: (seq<Preview>, seq<nat>))
    requires k <= |ps|
    ensures |r.0| == |ps|
    decreases |ps| - k
  {
    if k == |ps| || !Drawable(ps[k]) then (ps, [])
    else
      var rest := DrawFrom(ps[k := DrawPreview(ps[k])], k + 1);
      (rest.0, [k] + rest.1)
  }

  /** `drawPreviews`: the previews are drawn in index order up to the first
      one that cannot be drawn; that one and all after it are untouched, and
      nothing else about the context changes. */
  function DrawPreviews(c: Context): (r: (Context, seq<nat>))
    ensures |r.0.previews| == |c.previews| && r.0 == c.(previews := r.0.previews)
    ensures var m := FirstUndrawable(c.previews, 0);
      && r.1 == Range(0, m)
      && (forall j :: 0 <= j < m ==> r.0.previews[j] == DrawPreview(c.previews[j]))
      && (forall j :: m <= j < |c.previews| ==> r.0.previews[j] == c.previews[j])
  {
    DrawStopsAtFirstGap(c.previews, 0);
    var (ps, drawn) := DrawFrom(c.previews, 0);
    (c.(previews := ps), drawn)
  }

  /** `_render`: nothing without a context, a renderer and a tone mapper;
      otherwise the matrices are brought up to date, the main renderer
      renders a frame, and the previews are drawn. */
  function Render(c: Context): (r: (Context, seq<nat>))
    ensures |r.0.previews| == |c.previews|
    ensures !(c.hasGl && c.renderer.Some? && c.hasToneMapper) ==> r == (c, [])
  {
    if !c.hasGl || c.renderer.None? || !c.hasToneMapper then (c, [])
    else
      var u := UpdateMvpInverseMatrix(c);
      var rd := u.renderer.value;
      DrawPreviews(u.(renderer := Some(rd.(frames := rd.frames + 1))))
  }

  // ---------------------------------------------------------------------
  // Preview selection
  // ---------------------------------------------------------------------

  /** The observable steps of `handlePreviewClick`, in order. */
  datatype Step =
    | MainTakesRamp(ramp: seq<int>)
    | SendIndex(i: nat)
    | PreviewTakesRamp(k: nat, ramp: seq<int>)
    | PreviewReset(k: nat)
    | MainReset

  /** Where the handler stops when a step throws. */
  datatype ClickError =
    | NoMainRenderer
    | NoClickedRamp
    | NoPreview(k: nat)
    | NoPreviewRenderer(k: nat)

  /** The first index from `k` on at which the update loop throws: a
      preview that does not exist or has no renderer; the response's length
      when there is none. */
  function StopAt(ps: seq<Preview>, response: seq<TransferFunction>, k: nat): (m: nat)
    requires k <= |response|
    ensures k <= m <= |response|
    ensures m < |response| ==> m >= |ps| || ps[m].renderer.None?
    ensures k < m ==> m <= |ps|
    ensures forall j :: k <= j < m ==> ps[j].renderer.Some?
    decreases |response| - k
  {
    if k == |response| || k >= |ps| || ps[k].renderer.None? then k else StopAt(ps, response, k + 1)
  }

  /** The error the update loop stops with, if any. */
  function StopError(ps: seq<Preview>, response: seq<TransferFunction>, k: nat): Option<ClickError>
    requires k <= |response|
  {
    var m := StopAt(ps, response, k);
    if m == |response| then None else if m >= |ps| then Some(NoPreview(m)) else Some(NoPreviewRenderer(m))
  }

  /** `r` agrees with `ps` outside the indices `[k, n)`. */
  predicate SameOutside(ps: seq<Preview>, r: seq<Preview>, k: nat, n: nat) {
    |r| == |ps| && forall j :: 0 <= j < |ps| && !(k <= j < n) ==> r[j] == ps[j]
  }

  /** The stop index only looks at the previews from `k` on. */
  lemma {:induction false} StopAtIgnoresPrefix(ps: seq<Preview>, qs: seq<Preview>, response: seq<TransferFunction>, k: nat)
    requires k <= |response| && |ps| == |qs| && forall j :: k <= j < |ps| ==> qs[j] == ps[j]
    ensures StopAt(qs, response, k) == StopAt(ps, response, k)
    decreases |response| - k
  {
    if k < |response| && k < |ps| && ps[k].renderer.Some? {
      StopAtIgnoresPrefix(ps, qs, response, k + 1);
    }
  }

  /** The loop after the response: preview `k` takes the interpolated ramp
      of candidate `k`, then its renderer is reset. */
  function UpdatePreviews(ps: seq<Preview>, response: seq<TransferFunction>, k: nat): (r: (seq<Preview>, seq<Step>, Option<ClickError>))
    requires k <= |response|
    ensures |r.0| == |ps| && SameOutside(ps, r.0, k, |response|)
    ensures r.2 == StopError(ps, response, k)
    decreases |response| - k
  {
    if k == |response| then (ps, [], None)
    else if k >= |ps| then (ps, [], Some(NoPreview(k)))
    else
      var ramp := CorrectedRamp(response[k]);
      var ps1 := ps[k := ps[k].(ramp := Some(ramp))];
      if ps1[k].renderer.None? then (ps1, [PreviewTakesRamp(k, ramp)], Some(NoPreviewRenderer(k)))
      else
        var ps2 := ps[k := ps[k].(ramp := Some(ramp), renderer := Some(Reset(ps[k].renderer.value)))];
        StopAtIgnoresPrefix(ps, ps2, response, k + 1);
        var (ps3, steps, err) := UpdatePreviews(ps2, response, k + 1);
        (ps3, [PreviewTakesRamp(k, ramp), PreviewReset(k)] + steps, err)
  }

  /** The end of the first `readModality` of a volume: preview `k` takes the
      interpolated ramp of candidate `k`; nothing is reset. Assigning to a
      preview past the last one throws. */
  function AssignPreviewRamps(ps: seq<Preview>, response: seq<TransferFunction>, k: nat): (r: (seq<Preview>, Option<ClickError>))
    requires k <= |response| && k <= |ps|
    ensures |r.0| == |ps|
    ensures r.1.Some? <==> |response| > |ps|
    ensures r.1.Some? ==> r.1.value == NoPreview(|ps|)
    ensures forall j :: 0 <= j < |ps| ==>
      r.0[j] == if k <= j < |response| then ps[j].(ramp := Some(CorrectedRamp(response[j]))) else ps[j]
    decreases |response| - k
  {
    if k == |response| then (ps, None)
    else if k == |ps| then (ps, Some(NoPreview(k)))
    else AssignPreviewRamps(ps[k := ps[k].(ramp := Some(CorrectedRamp(response[k])))], response, k + 1)
  }

  /** The part of `handlePreviewClick` before its `await`: the main
      renderer takes the clicked preview's ramp and the index goes to the
      server. The handler suspends here; anything may run on the context
      before `ClickResponse` resumes it. */
  function ClickSend(c: Context, i: nat): (r: (Context, seq<Step>, Option<ClickError>))
    requires i < |c.previews|
    ensures c.renderer.None? ==> r == (c, [], Some(NoMainRenderer))
    ensures c.renderer.Some? && c.previews[i].ramp.None? ==> r == (c, [], Some(NoClickedRamp))
    ensures c.renderer.Some? && c.previews[i].ramp.Some? ==>
      && r.2.None? && r.1 == [MainTakesRamp(c.previews[i].ramp.value), SendIndex(i)]
      && r.0 == c.(renderer := r.0.renderer)
      && r.0.renderer == Some(c.renderer.value.(ramp := c.previews[i].ramp))
  {
    if c.renderer.None? then (c, [], Some(NoMainRenderer))
    else if c.previews[i].ramp.None? then (c, [], Some(NoClickedRamp))
    else
      var clicked := c.previews[i].ramp.value;
      (c.(renderer := Some(c.renderer.value.(ramp := Some(clicked)))), [MainTakesRamp(clicked), SendIndex(i)], None)
  }

  /** The part of `handlePreviewClick` after its `await`, on the context as
      it is when the answer arrives: the previews are updated in order, then
      whatever main renderer the context holds by then is reset. */
  function ClickResponse(c: Context, response: seq<TransferFunction>): (r: (Context, seq<Step>, Option<ClickError>))
    ensures |r.0.previews| == |c.previews| && SameOutside(c.previews, r.0.previews, 0, |response|)
    ensures r.0 == c.(previews := r.0.previews, renderer := r.0.renderer)
    ensures StopError(c.previews, response, 0).Some? ==> r.2 == StopError(c.previews, response, 0) && r.0.renderer == c.renderer
    ensures StopError(c.previews, response, 0).None? && c.renderer.None? ==> r.2 == Some(NoMainRenderer) && r.0.renderer.None?
    ensures r.2.None? <==> StopError(c.previews, response, 0).None? && c.renderer.Some?
    ensures r.2.None? ==> r.0.renderer == Some(Reset(c.renderer.value)) && |r.1| > 0 && r.1[|r.1| - 1] == MainReset
  {
    var (ps, steps, err) := UpdatePreviews(c.previews, response, 0);
    if err.Some? then (c.(previews := ps), steps, err)
    else if c.renderer.None? then (c.(previews := ps), steps, Some(NoMainRenderer))
    else (c.(previews := ps, renderer := Some(Reset(c.renderer.value))), steps + [MainReset], None)
  }

  /** `handlePreviewClick` on preview `i`, with `response` the candidates the
      server answers to `{ tfIndex: i }`, when nothing runs during the
      `await`: the state reached, the steps taken, and the error that
      stopped the handler, if any. */
  function HandlePreviewClick(c: Context, i: nat, response: seq<TransferFunction>): (r: (Context, seq<Step>, Option<ClickError>))
    requires i < |c.previews|
    ensures |r.0.previews| == |c.previews|
    ensures c.renderer.None? ==> r == (c, [], Some(NoMainRenderer))
    ensures c.renderer.Some? && c.previews[i].ramp.None? ==> r == (c, [], Some(NoClickedRamp))
    ensures c.renderer.Some? && c.previews[i].ramp.Some? ==>
      && |r.1| >= 2 && r.1[..2] == [MainTakesRamp(c.previews[i].ramp.value), SendIndex(i)]
      && r.0.renderer.Some? && r.0.renderer.value.ramp == c.previews[i].ramp
      && (r.2.None? <==> |response| <= |c.previews| && forall j :: 0 <= j < |response| ==> c.previews[j].renderer.Some?)
      && (r.2.None? ==> r.0.renderer.value.resets == c.renderer.value.resets + 1 && r.1[|r.1| - 1] == MainReset)
      && (r.2.Some? ==> r.0.renderer.value.resets == c.renderer.value.resets)
      && forall j :: |response| <= j < |c.previews| ==> r.0.previews[j] == c.previews[j]
  {
    var (c1, head, err) := ClickSend(c, i);
    if err.Some? then (c1, head, err)
    else
      var (c2, tail, err2) := ClickResponse(c1, response);
      (c2, head + tail, err2)
  }

  // ---------------------------------------------------------------------
  // Properties
  // ---------------------------------------------------------------------

  /** Eight previews numbered 0 to 7, 0-3 in the left column and 4-7 in the
      right, each a quarter of the resolution wide and high, rounded up. */
  lemma PreviewLayout(resolution: real)
    ensures var ps := CreatePreviews(resolution);
      forall k :: 0 <= k < PreviewCount ==>
        && ps[k].i == k
        && (ps[k].column == Left <==> k < PreviewCount / 2)
        && ps[k].width == ps[k].height
        && resolution * 0.25 <= ps[k].width as real < resolution * 0.25 + 1.0
        && ps[k].renderer.None? && ps[k].ramp.None? && ps[k].restorable
  {
    var l, r := AddPreviews(Left, 0, resolution), AddPreviews(Right, PreviewCount / 2, resolution);
    var side := PreviewSide(resolution);
    assert resolution * 0.25 <= side as real < resolution * 0.25 + 1.0;
    assert forall k :: 0 <= k < PreviewCount / 2 ==> l[k].width == side == l[k].height && r[k].width == side == r[k].height;
    assert forall k :: 0 <= k < PreviewCount / 2 ==> CreatePreviews(resolution)[k] == l[k];
    assert forall k :: PreviewCount / 2 <= k < PreviewCount ==> CreatePreviews(resolution)[k] == r[k - PreviewCount / 2];
  }

  /** The renderer of a context or preview after a broadcast of `m`. */
  predicate Refreshed(before: Option<Renderer>, after: Option<Renderer>, m: Mvp) {
    && after.Some? == before.Some?
    && (before.Some? ==>
          && after.value.mvp == Some(m)
          && after.value.resets == before.value.resets + 1
          && after.value.ramp == before.value.ramp
          && after.value.frames == before.value.frames)
  }

  /** When either flag is set, the main renderer and every existing preview
      renderer take the same matrices and are reset exactly once; no
      renderer appears or disappears and nothing else about a preview
      changes. A second update right after does nothing. */
  lemma UpdateBroadcasts(c: Context)
    requires c.camera.isDirty || c.transformDirty
    ensures var r := UpdateMvpInverseMatrix(c);
      && Refreshed(c.renderer, r.renderer, CurrentMvp(c))
      && (forall k :: 0 <= k < |c.previews| ==>
            Refreshed(c.previews[k].renderer, r.previews[k].renderer, CurrentMvp(c))
            && r.previews[k] == c.previews[k].(renderer := r.previews[k].renderer))
      && UpdateMvpInverseMatrix(r) == r
  {
  }

  /** A new scale or translation reaches every renderer at the next update. */
  lemma TransformReachesRenderers(c: Context, scale: Vec3, translation: Vec3)
    ensures var r := UpdateMvpInverseMatrix(SetTranslation(SetScale(c, scale), translation));
      var m := Mvp(ModelMatrix(scale, translation), c.camera.view, c.camera.projection);
      && Refreshed(c.renderer, r.renderer, m)
      && forall k :: 0 <= k < |c.previews| ==> Refreshed(c.previews[k].renderer, r.previews[k].renderer, m)
  {
    UpdateBroadcasts(SetTranslation(SetScale(c, scale), translation));
  }

  /** After a renderer is chosen, the next update hands every new renderer
      the current matrices with a single reset. */
  lemma ChosenRenderersGetMatrices(c: Context, kind: string)
    ensures var r := UpdateMvpInverseMatrix(ChooseRenderer(c, kind));
      && r.renderer == Some(Renderer(kind, Some(CurrentMvp(c)), 1, 0, None))
      && forall k :: 0 <= k < |c.previews| ==> r.previews[k].renderer == Some(Renderer(kind, Some(CurrentMvp(c)), 1, 0, None))
  {
    UpdateBroadcasts(ChooseRenderer(c, kind));
  }

  /** A filter change resets renderers but never changes which previews the
      next `drawPreviews` draws. */
  lemma FilterKeepsDrawnPreviews(c: Context, f: string)
    ensures DrawPreviews(SetFilter(c, f)).1 == DrawPreviews(c).1
  {
    var r := SetFilter(c, f);
    assert forall k :: 0 <= k < |c.previews| ==> (Drawable(r.previews[k]) <==> Drawable(c.previews[k]));
    FirstUndrawableByDrawability(c.previews, r.previews, 0);
  }

  /** The search for the first gap sees only which previews are drawable. */
  lemma {:induction false} FirstUndrawableByDrawability(ps: seq<Preview>, qs: seq<Preview>, k: nat)
    requires k <= |ps| == |qs|
    requires forall j :: k <= j < |ps| ==> (Drawable(qs[j]) <==> Drawable(ps[j]))
    ensures FirstUndrawable(qs, k) == FirstUndrawable(ps, k)
    decreases |ps| - k
  {
    if k < |ps| {
      FirstUndrawableByDrawability(ps, qs, k + 1);
    }
  }

  /** Whether a loss is prevented depends on the lost canvas's own flag
      alone: the main canvas ignores the previews, and a preview ignores the
      main canvas and every other preview. */
  lemma LossDecidedByTarget(c: Context, c': Context, target: Canvas)
    requires target.PreviewCanvas? ==> target.i < |c.previews| && target.i < |c'.previews|
    requires target.MainCanvas? ==> c'.restorable == c.restorable
    requires target.PreviewCanvas? ==> c'.previews[target.i].restorable == c.previews[target.i].restorable
    ensures ContextLost(c', target) == ContextLost(c, target)
  {
  }

  /** Restoring re-creates only the target canvas's context, after which a
      further loss there is prevented; a loss on any other canvas is decided
      as before, and a restored preview is drawable again exactly when it
      still has its renderer and tone mapper. */
  lemma RestoreOnlyTarget(c: Context, target: Canvas)
    requires target.PreviewCanvas? ==> target.i < |c.previews|
    ensures forall t :: t != target && (t.PreviewCanvas? ==> t.i < |c.previews|) ==>
      ContextLost(ContextRestored(c, target), t) == ContextLost(c, t)
    ensures target.PreviewCanvas? ==>
      (Drawable(ContextRestored(c, target).previews[target.i]) <==>
         c.previews[target.i].renderer.Some? && c.previews[target.i].hasToneMapper)
    ensures var r := ContextRestored(c, target);
      && ContextLost(r, target)
      && (target.MainCanvas? ==> r.previews == c.previews && r.hasGl)
      && (target.PreviewCanvas? ==>
            && r == c.(previews := r.previews)
            && r.previews[target.i].hasGl
            && forall k :: 0 <= k < |c.previews| && k != target.i ==> r.previews[k] == c.previews[k])
  {
  }

  /** The first preview at or after `k` that cannot be drawn, or the end. */
  function FirstUndrawable(ps: seq<Preview>, k: nat): (m: nat)
    requires k <= |ps|
    ensures k <= m <= |ps| && (m < |ps| ==> !Drawable(ps[m]))
    ensures forall j :: k <= j < m ==> Drawable(ps[j])
    decreases |ps| - k
  {
    if k == |ps| || !Drawable(ps[k]) then k else FirstUndrawable(ps, k + 1)
  }

  /** The ascending indices from `k` below `m`. */
  function Range(k: nat, m: nat): (r: seq<nat>)
    requires k <= m
    ensures |r| == m - k && forall j :: 0 <= j < |r| ==> r[j] == k + j
    decreases m - k
  {
    if k == m then [] else [k] + Range(k + 1, m)
  }

  /** `drawPreviews` from `k` composites exactly the previews up to the first
      one that cannot be drawn, renders a frame only for those that hold a
      ramp, and leaves that preview and all after it untouched. */
  lemma {:induction false} DrawStopsAtFirstGap(ps: seq<Preview>, k: nat)
    requires k <= |ps|
    ensures var (r, drawn) := DrawFrom(ps, k);
      var m := FirstUndrawable(ps, k);
      && drawn == Range(k, m)
      && (forall j :: 0 <= j < k || m <= j < |ps| ==> r[j] == ps[j])
      && (forall j :: k <= j < m ==> r[j] == DrawPreview(ps[j]))
    decreases |ps| - k
  {
    if k < |ps| && Drawable(ps[k]) {
      var ps1 := ps[k := DrawPreview(ps[k])];
      DrawStopsAtFirstGap(ps1, k + 1);
      assert FirstUndrawable(ps1, k + 1) == FirstUndrawable(ps, k + 1) by {
        FirstUndrawableIgnoresPrefix(ps, ps1, k + 1);
      }
    }
  }

  /** The search for the first gap only looks at the previews from `k` on. */
  lemma {:induction false} FirstUndrawableIgnoresPrefix(ps: seq<Preview>, qs: seq<Preview>, k: nat)
    requires k <= |ps| == |qs| && forall j :: k <= j < |ps| ==> qs[j] == ps[j]
    ensures FirstUndrawable(qs, k) == FirstUndrawable(ps, k)
    decreases |ps| - k
  {
    if k < |ps| {
      FirstUndrawableIgnoresPrefix(ps, qs, k + 1);
    }
  }

  /** A drawn preview renders a frame with its ramp exactly when it holds
      one. */
  lemma DrawnPreviewRendersWithRamp(p: Preview)
    requires Drawable(p)
    ensures var r := DrawPreview(p);
      && (p.ramp.Some? ==> r.renderer.value.frames == p.renderer.value.frames + 1 && r.renderer.value.ramp == p.ramp)
      && (p.ramp.None? ==> r == p)
  {
  }

  /** The steps of the update loop when every preview it reaches exists and
      has a renderer. */
  function PairSteps(response: seq<TransferFunction>, k: nat): (r: seq<Step>)
    requires k <= |response|
    ensures |r| == 2 * (|response| - k)
    decreases |response| - k
  {
    if k == |response| then []
    else [PreviewTakesRamp(k, CorrectedRamp(response[k])), PreviewReset(k)] + PairSteps(response, k + 1)
  }

  /** Every preview the response reaches has a renderer. */
  predicate Reachable(ps: seq<Preview>, response: seq<TransferFunction>) {
    |response| <= |ps| && forall k :: 0 <= k < |response| ==> ps[k].renderer.Some?
  }

  /** `r` is `ps` with every preview from `k` below the response's length
      holding its candidate's ramp and reset once, and no other change. */
  predicate UpdatedFrom(ps: seq<Preview>, r: seq<Preview>, response: seq<TransferFunction>, k: nat)
    requires Reachable(ps, response) && |r| == |ps|
  {
    && (forall j :: 0 <= j < |ps| && !(k <= j < |response|) ==> r[j] == ps[j])
    && (forall j :: k <= j < |response| ==>
          r[j] == ps[j].(ramp := Some(CorrectedRamp(response[j])), renderer := Some(Reset(ps[j].renderer.value))))
  }

  lemma {:induction false} UpdatePreviewsInOrder(ps: seq<Preview>, response: seq<TransferFunction>, k: nat)
    requires k <= |response| && Reachable(ps, response)
    ensures var (r, steps, err) := UpdatePreviews(ps, response, k);
      err.None? && steps == PairSteps(response, k) && UpdatedFrom(ps, r, response, k)
    decreases |response| - k
  {
    if k < |response| {
      var ramp := CorrectedRamp(response[k]);
      var ps2 := ps[k := ps[k].(ramp := Some(ramp), renderer := Some(Reset(ps[k].renderer.value)))];
      assert Reachable(ps2, response);
      UpdatePreviewsInOrder(ps2, response, k + 1);
      var rest := UpdatePreviews(ps2, response, k + 1);
      assert UpdatePreviews(ps, response, k) == (rest.0, [PreviewTakesRamp(k, ramp), PreviewReset(k)] + rest.1, rest.2);
      var r := rest.0;
      UpdatedExtends(ps, ps2, r, response, k);
    }
  }

  /** One step of the update loop: updating preview `k` in front of an
      update from `k + 1` is an update from `k`. */
  lemma UpdatedExtends(ps: seq<Preview>, ps2: seq<Preview>, r: seq<Preview>, response: seq<TransferFunction>, k: nat)
    requires k < |response| && Reachable(ps, response) && Reachable(ps2, response) && |r| == |ps|
    requires ps2 == ps[k := ps[k].(ramp := Some(CorrectedRamp(response[k])), renderer := Some(Reset(ps[k].renderer.value)))]
    requires UpdatedFrom(ps2, r, response, k + 1)
    ensures UpdatedFrom(ps, r, response, k)
  {
    forall j | 0 <= j < |ps| && !(k <= j < |response|)
      ensures r[j] == ps[j]
    {
      assert r[j] == ps2[j];
    }
    forall j | k <= j < |response|
      ensures r[j] == ps[j].(ramp := Some(CorrectedRamp(response[j])), renderer := Some(Reset(ps[j].renderer.value)))
    {
      if j == k {
        assert r[j] == ps2[j];
      } else {
        assert ps2[j] == ps[j];
      }
    }
  }

  /** A click on preview `i`: the main renderer first takes the ramp the
      clicked preview holds before the request; after the response each
      preview `k` below its length takes the interpolated ramp of candidate
      `k` and is reset, in index order; the main renderer is reset last. The
      main renderer therefore keeps the clicked preview's old ramp even when
      that preview has just received a new one. */
  lemma ClickOrder(c: Context, i: nat, response: seq<TransferFunction>)
    requires i < |c.previews| && c.renderer.Some? && c.previews[i].ramp.Some?
    requires Reachable(c.previews, response)
    ensures var (r, steps, err) := HandlePreviewClick(c, i, response);
      var clicked := c.previews[i].ramp.value;
      && err.None?
      && steps == [MainTakesRamp(clicked), SendIndex(i)] + PairSteps(response, 0) + [MainReset]
      && r.renderer == Some(Reset(c.renderer.value.(ramp := Some(clicked))))
      && (forall k :: 0 <= k < |response| ==>
            r.previews[k].ramp == Some(CorrectedRamp(response[k])) && r.previews[k].renderer == Some(Reset(c.previews[k].renderer.value)))
      && (forall k :: |response| <= k < |c.previews| ==> r.previews[k] == c.previews[k])
  {
    var s := ClickSend(c, i);
    ResponseUpdatesAll(s.0, response);
    var a := ClickResponse(s.0, response);
    ClickComposes(c, i, response);
    var head, pairs := [MainTakesRamp(c.previews[i].ramp.value), SendIndex(i)], PairSteps(response, 0);
    assert s.1 == head && a.1 == pairs + [MainReset];
    StepsAssociate(head, pairs, [MainReset]);
    assert UpdatedFrom(c.previews, a.0.previews, response, 0);
  }

  /** Step lists concatenate associatively. */
  lemma StepsAssociate(a: seq<Step>, b: seq<Step>, c: seq<Step>)
    ensures a + (b + c) == a + b + c
  {
  }

  /** With the send step through, the handler is the response step on its
      result, after the send step's steps. */
  lemma ClickComposes(c: Context, i: nat, response: seq<TransferFunction>)
    requires i < |c.previews| && ClickSend(c, i).2.None?
    ensures var s := ClickSend(c, i);
      var a := ClickResponse(s.0, response);
      HandlePreviewClick(c, i, response) == (a.0, s.1 + a.1, a.2)
  {
  }

  /** An answer every reached preview can take: it succeeds, each preview
      below its length holds its candidate's ramp, no preview renderer
      appears or disappears, and the main renderer is reset once. */
  lemma ResponseUpdatesAll(c: Context, response: seq<TransferFunction>)
    requires c.renderer.Some? && Reachable(c.previews, response)
    ensures var r := ClickResponse(c, response).0;
      && ClickResponse(c, response).2.None?
      && r.renderer == Some(Reset(c.renderer.value))
      && (forall k :: 0 <= k < |response| ==> r.previews[k].ramp == Some(CorrectedRamp(response[k])))
      && (forall k :: 0 <= k < |c.previews| ==> r.previews[k].renderer.Some? == c.previews[k].renderer.Some?)
      && ClickResponse(c, response).1 == PairSteps(response, 0) + [MainReset]
      && |r.previews| == |c.previews| && UpdatedFrom(c.previews, r.previews, response, 0)
  {
    UpdatePreviewsInOrder(c.previews, response, 0);
    var u := UpdatePreviews(c.previews, response, 0);
    assert ClickResponse(c, response)
        == (c.(previews := u.0, renderer := Some(Reset(c.renderer.value))), u.1 + [MainReset], None);
    assert UpdatedFrom(c.previews, u.0, response, 0);
  }

  /** A renderer chosen while the request is pending replaces the one that
      took the clicked ramp: the answer still succeeds, but the main renderer
      ends without any ramp, reset once after its creation. */
  lemma RendererChosenMidClick(c: Context, i: nat, response: seq<TransferFunction>, kind: string)
    requires i < |c.previews| && c.renderer.Some? && c.previews[i].ramp.Some?
    requires |response| <= |c.previews|
    ensures var mid := ChooseRenderer(ClickSend(c, i).0, kind);
      var r := ClickResponse(mid, response);
      r.2.None? && r.0.renderer == Some(Reset(NewRenderer(kind))) && r.0.renderer.value.ramp.None?
  {
    var mid := ChooseRenderer(ClickSend(c, i).0, kind);
    ResponseUpdatesAll(mid, response);
  }

  /** A second click before the first answer arrives: both indices go out
      before either answer is applied. The previews end with the second
      answer's ramps, and the main renderer ends with the ramp the second
      preview held before either answer, reset once per answer. */
  lemma SecondClickBeforeAnswer(c: Context, i: nat, j: nat, first: seq<TransferFunction>, second: seq<TransferFunction>)
    requires i < |c.previews| && j < |c.previews| && c.renderer.Some?
    requires c.previews[i].ramp.Some? && c.previews[j].ramp.Some?
    requires Reachable(c.previews, first) && Reachable(c.previews, second)
    ensures var s1 := ClickSend(c, i);
      var s2 := ClickSend(s1.0, j);
      var a1 := ClickResponse(s2.0, first);
      var a2 := ClickResponse(a1.0, second);
      && s1.1 + s2.1 == [MainTakesRamp(c.previews[i].ramp.value), SendIndex(i), MainTakesRamp(c.previews[j].ramp.value), SendIndex(j)]
      && a1.2.None? && a2.2.None?
      && a2.0.renderer.value.ramp == c.previews[j].ramp
      && a2.0.renderer.value.resets == c.renderer.value.resets + 2
      && forall k :: 0 <= k < |second| ==> a2.0.previews[k].ramp == Some(CorrectedRamp(second[k]))
  {
    var s2 := ClickSend(ClickSend(c, i).0, j).0;
    ResponseUpdatesAll(s2, first);
    var a1 := ClickResponse(s2, first).0;
    ResponseUpdatesAll(a1, second);
  }

  /** Without a main renderer or a ramp on the clicked preview the handler
      throws before anything changes; a response longer than the previews
      throws after every preview was updated, before the main reset. */
  lemma ClickFailures(c: Context, i: nat, response: seq<TransferFunction>)
    requires i < |c.previews|
    ensures c.renderer.None? ==> HandlePreviewClick(c, i, response) == (c, [], Some(NoMainRenderer))
    ensures c.renderer.Some? && c.previews[i].ramp.None? ==> HandlePreviewClick(c, i, response) == (c, [], Some(NoClickedRamp))
    ensures c.renderer.Some? && c.previews[i].ramp.Some? && |response| > |c.previews| && Reachable(c.previews, response[..|c.previews|]) ==>
      var (r, steps, err) := HandlePreviewClick(c, i, response);
      err == Some(NoPreview(|c.previews|)) && r.renderer.value.resets == c.renderer.value.resets
  {
    if c.renderer.Some? && c.previews[i].ramp.Some? && |response| > |c.previews| && Reachable(c.previews, response[..|c.previews|]) {
      UpdatePreviewsOverrun(c.previews, response, 0);
    }
  }

  /** A response longer than the previews runs the loop off their end. */
  lemma {:induction false} UpdatePreviewsOverrun(ps: seq<Preview>, response: seq<TransferFunction>, k: nat)
    requires k <= |ps| < |response| && Reachable(ps, response[..|ps|])
    ensures UpdatePreviews(ps, response, k).2 == Some(NoPreview(|ps|))
    decreases |ps| - k
  {
    if k < |ps| {
      assert response[..|ps|][k] == response[k];
      var ramp := CorrectedRamp(response[k]);
      var ps1 := ps[k := ps[k].(ramp := Some(ramp))];
      var ps2 := ps1[k := ps1[k].(renderer := Some(Reset(ps1[k].renderer.value)))];
      assert Reachable(ps2, response[..|ps|]) by {
        assert forall j :: 0 <= j < |ps| ==> response[..|ps|][j] == response[j];
      }
      UpdatePreviewsOverrun(ps2, response, k + 1);
    }
  }

  /** A frame with everything in place: the matrices are brought up to date
      first, the main renderer renders one frame, and the previews are drawn
      up to the first one that cannot be. */
  lemma RenderDrawsFrame(c: Context)
    requires c.hasGl && c.renderer.Some? && c.hasToneMapper
    ensures var (r, drawn) := Render(c);
      var u := UpdateMvpInverseMatrix(c);
      && !r.camera.isDirty && !r.transformDirty
      && r.renderer.value.frames == c.renderer.value.frames + 1
      && (c.camera.isDirty || c.transformDirty ==> r.renderer.value.mvp == Some(CurrentMvp(c)))
      && drawn == Range(0, FirstUndrawable(u.previews, 0))
  {
    var u := UpdateMvpInverseMatrix(c);
    if c.camera.isDirty || c.transformDirty {
      UpdateBroadcasts(c);
    }
    DrawStopsAtFirstGap(u.previews, 0);
  }

  /** Once a renderer and a tone mapper are chosen, every preview whose
      context exists is drawn, in index order; so with all contexts alive
      all previews are. */
  lemma ChosenPreviewsAllDrawn(c: Context, kind: string)
    requires forall k :: 0 <= k < |c.previews| ==> c.previews[k].hasGl
    ensures DrawPreviews(ChooseToneMapper(ChooseRenderer(c, kind))).1 == Range(0, |c.previews|)
  {
    var ps := ChooseToneMapper(ChooseRenderer(c, kind)).previews;
    assert forall k :: 0 <= k < |ps| ==> Drawable(ps[k]);
    DrawStopsAtFirstGap(ps, 0);
  }
}

=== FILE: round_order.dfy ===
/** The shape of one adaptation round, independent of what re-drawing a row
    computes: rows are rewritten one at a time, each from the current value
    of a fixed selected row. The synthesizer instantiates `f` with its
    row adaptation. */
module RoundOrder {

  /** Row `tf` replaced by what `f` makes of the current row `k`. */
  function ReplaceFrom<T>(rows: seq<T>, tf: nat, k: nat, f: (nat, T) -> T): (r: seq<T>)
    requires tf < |rows| && k < |rows|
    ensures |r| == |rows| && r[tf] == f(tf, rows[k])
    ensures forall j :: 0 <= j < |rows| && j != tf ==> r[j] == rows[j]
  {
    rows[tf := f(tf, rows[k])]
  }

  /** The rows of `order` replaced one after the other. */
  function ReplaceInOrder<T>(rows: seq<T>, k: nat, order: seq<nat>, f: (nat, T) -> T): (r: seq<T>)
    requires k < |rows| && forall j :: 0 <= j < |order| ==> order[j] < |rows|
    ensures |r| == |rows|
    decreases |order|
  {
    if |order| == 0 then rows
    else ReplaceInOrder(ReplaceFrom(rows, order[0], k, f), k, order[1..], f)
  }

  /** The indices below `n` other than `k`, ascending from `j`. */
  function OthersFrom(j: nat, k: nat, n: nat): (r: seq<nat>)
    requires j <= n
    ensures forall x :: x in r <==> j <= x < n && x != k
    ensures forall i :: 0 <= i < |r| ==> r[i] < n
    decreases n - j
  {
    if j == n then []
    else if j == k then OthersFrom(j + 1, k, n)
    else [j] + OthersFrom(j + 1, k, n)
  }

  /** While row `k` is not rewritten, every rewritten row is `f` of the
      original row `k` and every other row is unchanged. */
  lemma {:induction false} ReplaceOthers<T>(rows: seq<T>, k: nat, order: seq<nat>, f: (nat, T) -> T, j: nat)
    requires k < |rows| && forall x :: 0 <= x < |order| ==> order[x] < |rows|
    requires k !in order && j < |rows|
    ensures ReplaceInOrder(rows, k, order, f)[j] == if j in order then f(j, rows[k]) else rows[j]
    decreases |order|
  {
    if |order| > 0 {
      var rows1 := ReplaceFrom(rows, order[0], k, f);
      ReplaceOthers(rows1, k, order[1..], f, j);
      assert j in order <==> j == order[0] || j in order[1..] by {
        assert order == [order[0]] + order[1..];
      }
    }
  }

  /** Rewriting along `a + b` is rewriting along `a`, then along `b`. */
  lemma {:induction false} ReplaceAppend<T>(rows: seq<T>, k: nat, a: seq<nat>, b: seq<nat>, f: (nat, T) -> T)
    requires k < |rows|
    requires forall j :: 0 <= j < |a| ==> a[j] < |rows|
    requires forall j :: 0 <= j < |b| ==> b[j] < |rows|
    ensures forall j :: 0 <= j < |a + b| ==> (a + b)[j] < |rows|
    ensures ReplaceInOrder(rows, k, a + b, f) == ReplaceInOrder(ReplaceInOrder(rows, k, a, f), k, b, f)
    decreases |a|
  {
    if |a| > 0 {
      assert (a + b)[1..] == a[1..] + b;
      ReplaceAppend(ReplaceFrom(rows, a[0], k, f), k, a[1..], b, f);
    } else {
      assert a + b == b;
    }
  }

  /** Rewriting every other row first and row `k` last gives every row `f`
      of the original row `k`: the sequential round equals the parallel
      one. */
  lemma SelectedLastIsParallel<T>(rows: seq<T>, k: nat, f: (nat, T) -> T)
    requires k < |rows|
    ensures forall j :: 0 <= j < |OthersFrom(0, k, |rows|) + [k]| ==> (OthersFrom(0, k, |rows|) + [k])[j] < |rows|
    ensures ReplaceInOrder(rows, k, OthersFrom(0, k, |rows|) + [k], f)
      == seq(|rows|, j requires 0 <= j < |rows| => f(j, rows[k]))
  {
    var others := OthersFrom(0, k, |rows|);
    ReplaceAppend(rows, k, others, [k], f);
    var mid := ReplaceInOrder(rows, k, others, f);
    ReplaceOthers(rows, k, others, f, k);
    assert ReplaceInOrder(mid, k, [k], f) == ReplaceFrom(mid, k, k, f) by {
      assert [k][1..] == [];
    }
    var r := ReplaceFrom(mid, k, k, f);
    forall j | 0 <= j < |rows|
      ensures r[j] == f(j, rows[k])
    {
      ReplaceOthers(rows, k, others, f, j);
      assert j != k ==> j in others;
    }
  }
}

=== FILE: server.dfy ===
/** The request handler of the transfer-function server: one route, answered
    for `OPTIONS` with an empty 200, for `POST` by creating or adapting the
    session's candidates, and for anything else with a 404.

    The server holds at most one session (the `Controller` of the last
    volume) and the process-wide adaptation magnitudes. An exception thrown
    while a `POST` body is handled escapes the `end` listener and ends the
    process; `up` records whether it still runs. JSON parsing is given as
    the parsed `Body`; the random draws and the power scale are parameters. */
module Server {
  import opened Wrappers
  import opened Color
  import opened ClusterStats
  import opened Synthesizer

  const Route: string := "/api/get-transfer-functions"
  const NotFoundMessage: string := "Route not found"

  /** `url.replace(/[\/]$/, "")`: one trailing slash removed. */
  function StripTrailingSlash(url: string): (r: string)
    ensures |r| == |url| || |r| == |url| - 1
    ensures r == url[..|r|]
    ensures |r| < |url| <==> |url| > 0 && url[|url| - 1] == '/'
  {
    if |url| > 0 && url[|url| - 1] == '/' then url[..|url| - 1] else url
  }

  /** The `tfIndex` field of a request body: missing, `null`, or a number
      used as a candidate index. */
  datatype TfIndex = Absent | Null | Index(i: int)

  /** A request body: text `JSON.parse` rejects, the JSON value `null`
      (on which reading `data.volume` throws), or an object whose `volume`
      is `Some` when it holds a (truthy) array of features and `None` when
      it is missing or falsy. Any other JSON value reads both fields as
      missing. */
  datatype Body =
    | Unparsable
    | NullBody
    | Body(volume: Option<seq<Cluster>>, tfIndex: TfIndex)

  datatype Request = Request(url: string, verb: string, body: Body)

  datatype Payload =
    | NoBody                                        // `res.end()`
    | EmptyObject                                   // `{}`
    | Candidates(functions: seq<TransferFunction>)  // `{ transferFunctions }`
    | Message(text: string)                         // `{ message }`

  datatype Outcome =
    | Reply(status: int, payload: Payload)
    | Crash     // the exception ends the process
    | NoReply   // the process has ended

  datatype ServerState = ServerState(up: bool, session: Option<Session>, adapt: Adapt)

  const Initial: ServerState := ServerState(true, None, InitialAdapt)

  /** What the handler relies on between requests. */
  predicate Invariant(st: ServerState) {
    ValidAdapt(st.adapt) && (st.session.Some? ==> Valid(st.session.value))
  }

  /** The environment of one request: draws for every cluster of the volume
      the request works on, a power scale inside its range, and features
      whose variances are not all equal. */
  ghost predicate Serviceable(st: ServerState, req: Request, draws: seq<seq<Draw>>, pow: PowScale) {
    && PowInRange(pow)
    && (req.body.Body? && req.body.volume.Some? ==>
          ValidDraws(draws, |req.body.volume.value|) && DistinctVariances(req.body.volume.value))
    && (req.body.Body? && req.body.volume.None? && st.session.Some? ==>
          ValidDraws(draws, |st.session.value.volume|))
  }

  function AsSelection(t: TfIndex): Option<int>
    requires !t.Absent?
  {
    if t.Null? then None else Some(t.i)
  }

  /** The body of a `POST` to the route: a new volume replaces the session
      (and wins over `tfIndex`); otherwise a `tfIndex` is applied to an
      existing session; otherwise the answer is `{}`. */
  function HandlePost(st: ServerState, body: Body, draws: seq<seq<Draw>>, pow: PowScale): (r: (ServerState, Outcome))
    requires Invariant(st) && st.up && Serviceable(st, Request(Route, "POST", body), draws, pow)
    ensures Invariant(r.0)
  {
    if body.Unparsable? || body.NullBody? then (st.(up := false), Crash)
    else if body.volume.Some? then
      match NewController(body.volume.value, st.adapt, draws, pow)
      case Failure(_) => (st.(up := false), Crash)
      case Success((s, decayed)) =>
        var (s', m') := GetParameters(s, None, draws, decayed, pow).value;
        (ServerState(true, Some(s'), m'), Reply(200, Candidates(s'.transferFunctions)))
    else if st.session.Some? && !body.tfIndex.Absent? then
      match GetParameters(st.session.value, AsSelection(body.tfIndex), draws, st.adapt, pow)
      case Failure(_) => (st.(up := false), Crash)
      case Success((s', m')) => (ServerState(true, Some(s'), m'), Reply(200, Candidates(s'.transferFunctions)))
    else (st, Reply(200, EmptyObject))
  }

  /** The `createServer` callback. */
  function Handle(st: ServerState, req: Request, draws: seq<seq<Draw>>, pow: PowScale): (r: (ServerState, Outcome))
    requires Invariant(st) && Serviceable(st, req, draws, pow)
    ensures Invariant(r.0)
    ensures r.1 == Crash <==> !r.0.up && st.up
    ensures !st.up ==> r == (st, NoReply)
  {
    if !st.up then (st, NoReply)
    else
      var url := StripTrailingSlash(req.url);
      if url == Route && req.verb == "OPTIONS" then (st, Reply(200, NoBody))
      else if url == Route && req.verb == "POST" then HandlePost(st, req.body, draws, pow)
      else (st, Reply(404, Message(NotFoundMessage)))
  }

  // ---------------------------------------------------------------------
  // Properties
  // ---------------------------------------------------------------------

  /** The route is matched with or without one trailing slash, and not with
      two. */
  lemma TrailingSlashMatches()
    ensures StripTrailingSlash(Route) == Route
    ensures StripTrailingSlash(Route + "/") == Route
    ensures StripTrailingSlash(Route + "//") != Route
  {
    assert (Route + "/")[..|Route|] == Route;
    assert (Route + "//")[..|Route| + 1] == Route + "/";
  }

  /** `OPTIONS` on the route answers 200 with an empty body and changes
      nothing. */
  lemma OptionsIsEmpty(st: ServerState, req: Request, draws: seq<seq<Draw>>, pow: PowScale)
    requires Invariant(st) && Serviceable(st, req, draws, pow) && st.up
    requires StripTrailingSlash(req.url) == Route && req.verb == "OPTIONS"
    ensures Handle(st, req, draws, pow) == (st, Reply(200, NoBody))
  {
  }

  /** Any other method or URL answers 404 with the fixed message and leaves
      the session alone. */
  lemma UnknownRouteIsNotFound(st: ServerState, req: Request, draws: seq<seq<Draw>>, pow: PowScale)
    requires Invariant(st) && Serviceable(st, req, draws, pow) && st.up
    requires StripTrailingSlash(req.url) != Route || (req.verb != "OPTIONS" && req.verb != "POST")
    ensures Handle(st, req, draws, pow) == (st, Reply(404, Message("Route not found")))
  {
  }

  /** A `POST` with a non-empty volume always starts a new session on that
      volume, whatever session existed and whatever `tfIndex` says; the new
      candidates are answered, and the magnitudes are back at their initial
      values. An empty volume array makes the reduction throw. */
  lemma VolumeStartsSession(st: ServerState, vol: seq<Cluster>, t: TfIndex, draws: seq<seq<Draw>>, pow: PowScale)
    requires Invariant(st) && st.up
    requires Serviceable(st, Request(Route, "POST", Body(Some(vol), t)), draws, pow)
    ensures var (st', out) := Handle(st, Request(Route, "POST", Body(Some(vol), t)), draws, pow);
      && (|vol| > 0 ==> st'.up && st'.session.Some? && st'.session.value.volume == vol
                        && st'.adapt == InitialAdapt
                        && out == Reply(200, Candidates(st'.session.value.transferFunctions)))
      && (|vol| == 0 ==> out == Crash)
    ensures forall t' ::
      Handle(st, Request(Route, "POST", Body(Some(vol), t')), draws, pow) == Handle(st, Request(Route, "POST", Body(Some(vol), t)), draws, pow)
  {
  }

  /** A `tfIndex` without a session answers `{}` and creates nothing; a
      body with neither field does the same. */
  lemma IndexWithoutSession(st: ServerState, t: TfIndex, draws: seq<seq<Draw>>, pow: PowScale)
    requires Invariant(st) && st.up && st.session.None?
    requires Serviceable(st, Request(Route, "POST", Body(None, t)), draws, pow)
    ensures Handle(st, Request(Route, "POST", Body(None, t)), draws, pow) == (st, Reply(200, EmptyObject))
  {
  }

  /** `tfIndex: null` resets the magnitudes and answers the candidates as
      they are; an index in `[0, 8)` runs one adaptation round on the same
      volume; any other index ends the process without changing the
      session. */
  lemma IndexOnSession(st: ServerState, t: TfIndex, draws: seq<seq<Draw>>, pow: PowScale)
    requires Invariant(st) && st.up && st.session.Some? && !t.Absent?
    requires Serviceable(st, Request(Route, "POST", Body(None, t)), draws, pow)
    ensures var (st', out) := Handle(st, Request(Route, "POST", Body(None, t)), draws, pow);
      && (t.Null? ==> st' == st.(adapt := InitialAdapt)
                      && out == Reply(200, Candidates(st.session.value.transferFunctions)))
      && (t.Index? && 0 <= t.i < TfNumber ==>
            st'.up && st'.session.Some? && st'.session.value.volume == st.session.value.volume
            && st'.adapt == Adapt(st.adapt.s * 0.8, st.adapt.v * 0.8, st.adapt.h * 0.8)
            && out == Reply(200, Candidates(st'.session.value.transferFunctions)))
      && (t.Index? && !(0 <= t.i < TfNumber) ==> out == Crash && st'.session == st.session)
  {
  }

  /** A body that is not JSON ends the process. */
  lemma UnparsableCrashes(st: ServerState, draws: seq<seq<Draw>>, pow: PowScale)
    requires Invariant(st) && st.up
    requires Serviceable(st, Request(Route, "POST", Unparsable), draws, pow)
    ensures Handle(st, Request(Route, "POST", Unparsable), draws, pow) == (st.(up := false), Crash)
  {
  }

  /** The body `null` parses, but reading its `volume` throws: the process
      ends, with the session and the magnitudes as they were. */
  lemma NullBodyCrashes(st: ServerState, draws: seq<seq<Draw>>, pow: PowScale)
    requires Invariant(st) && st.up
    requires Serviceable(st, Request(Route, "POST", NullBody), draws, pow)
    ensures Handle(st, Request(Route, "POST", NullBody), draws, pow) == (st.(up := false), Crash)
  {
  }
}

=== FILE: synthesizer.dfy ===
/** The transfer-function synthesizer of the server: from the cluster features
    of one volume it generates eight candidate transfer functions with random
    colour seeds, and on each selection it re-draws every candidate around the
    selected one with jitter magnitudes that shrink round by round.

    Every `Math.random()` call is an explicit `Draw` input, and the power scale
    of the foreign plotting library is the parameter `pow`. */
module Synthesizer {
  import opened Wrappers
  import opened Numbers
  import opened Color
  import opened ClusterStats
  import opened RoundOrder

  /** Number of candidates per session (`tfNumber`). */
  const TfNumber: nat := 8

  /** Factor applied to every adaptation magnitude after each round. */
  const ChangesRate: real := 0.8

  /** Saturation seed of a fresh generation, and the seed's upper bound. */
  const StartS: real := 10.0
  const SRange: real := 100.0

  /** Value seed of a fresh generation, and the seed's upper bound. */
  const StartV: real := 0.0
  const VRange: real := 10.0

  /** The three jitter magnitudes (`adaptS`, `adaptV`, `adaptH`). In the
      source they are module-level variables shared by every session. */
  datatype Adapt = Adapt(s: real, v: real, h: real)

  const InitialAdapt: Adapt := Adapt(30.0, 4.0, 2.0 / 3.0)

  predicate ValidAdapt(m: Adapt) {
    0.0 <= m.s && 0.0 <= m.v && 0.0 <= m.h <= 1.0
  }

  /** One round's shrinking of the magnitudes. */
  function Decay(m: Adapt): (r: Adapt)
    ensures ValidAdapt(m) ==> ValidAdapt(r) && r.h <= m.h
  {
    Adapt(m.s * ChangesRate, m.v * ChangesRate, m.h * ChangesRate)
  }

  datatype SynthError =
    | EmptyVolume            // `reduce` of an empty feature array throws
    | InvalidCandidateIndex  // the selected settings are `undefined`

  // ---------------------------------------------------------------------
  // Min/max reduction over the features
  // ---------------------------------------------------------------------

  function Variances(vol: seq<Cluster>): (r: seq<real>)
    ensures |r| == |vol| && forall i :: 0 <= i < |vol| ==> r[i] == vol[i].variance
  {
    seq(|vol|, i requires 0 <= i < |vol| => vol[i].variance)
  }

  function Distances(vol: seq<Cluster>): (r: seq<real>)
    ensures |r| == |vol| && forall i :: 0 <= i < |vol| ==> r[i] == vol[i].distanceToVolumeCenter
  {
    seq(|vol|, i requires 0 <= i < |vol| => vol[i].distanceToVolumeCenter)
  }

  /** `reduce((p, c) => p > c ? p : c)` from the left: the largest element. */
  function Largest(xs: seq<real>): (m: real)
    requires |xs| > 0
    ensures m in xs
    ensures forall k :: 0 <= k < |xs| ==> xs[k] <= m
  {
    if |xs| == 1 then xs[0]
    else
      var p := Largest(xs[..|xs| - 1]);
      var c := xs[|xs| - 1];
      if p > c then p else c
  }

  /** `reduce((p, c) => p < c ? p : c)` from the left: the smallest element. */
  function Smallest(xs: seq<real>): (m: real)
    requires |xs| > 0
    ensures m in xs
    ensures forall k :: 0 <= k < |xs| ==> m <= xs[k]
  {
    if |xs| == 1 then xs[0]
    else
      var p := Smallest(xs[..|xs| - 1]);
      var c := xs[|xs| - 1];
      if p < c then p else c
  }

  datatype VolumeData = VolumeData(minVariance: real, maxVariance: real, minDistance: real, maxDistance: real)

  /** Every feature lies inside the reduced ranges, and each bound is
      attained by some feature. */
  predicate IsVolumeDataOf(vol: seq<Cluster>, d: VolumeData) {
    && (forall i :: 0 <= i < |vol| ==>
          && d.minVariance <= vol[i].variance <= d.maxVariance
          && d.minDistance <= vol[i].distanceToVolumeCenter <= d.maxDistance)
    && (exists i :: 0 <= i < |vol| && vol[i].variance == d.minVariance)
    && (exists i :: 0 <= i < |vol| && vol[i].variance == d.maxVariance)
    && (exists i :: 0 <= i < |vol| && vol[i].distanceToVolumeCenter == d.minDistance)
    && (exists i :: 0 <= i < |vol| && vol[i].distanceToVolumeCenter == d.maxDistance)
  }

  /** `calculateVolumeData`: the four reductions. */
  function CalculateVolumeData(vol: seq<Cluster>): (r: Result<VolumeData, SynthError>)
    ensures r.Success? <==> |vol| > 0
    ensures r.Failure? ==> r.error == EmptyVolume
    ensures r.Success? ==> IsVolumeDataOf(vol, r.value)
  {
    if |vol| == 0 then Failure(EmptyVolume)
    else
      var vs, ds := Variances(vol), Distances(vol);
      Success(VolumeData(Smallest(vs), Largest(vs), Smallest(ds), Largest(ds)))
  }

  /** The variances are not all equal. Otherwise `interpolateToNewRange`
      divides zero by zero and every saturation and alpha is `NaN`. */
  predicate DistinctVariances(vol: seq<Cluster>) {
    |vol| > 0 ==> Smallest(Variances(vol)) < Largest(Variances(vol))
  }

  // ---------------------------------------------------------------------
  // Range mapping
  // ---------------------------------------------------------------------

  /** `interpolateToNewRange`: the affine map taking `lo` to `newLo` and
      `hi` to `newHi`. */
  function InterpolateToNewRange(x: real, lo: real, hi: real, newLo: real, newHi: real): real
    requires lo < hi
  {
    (x - lo) * (newHi - newLo) / (hi - lo) + newLo
  }

  /** The two ends of the source range land on the two ends of the new one. */
  lemma InterpolateEndpoints(lo: real, hi: real, newLo: real, newHi: real)
    requires lo < hi
    ensures InterpolateToNewRange(lo, lo, hi, newLo, newHi) == newLo
    ensures InterpolateToNewRange(hi, lo, hi, newLo, newHi) == newHi
  {
    assert (hi - lo) * (newHi - newLo) / (hi - lo) == newHi - newLo;
  }

  /** `a / b` lies in [0, 1] when `0 <= a <= b`. */
  lemma QuotientInUnit(a: real, b: real)
    requires 0.0 <= a <= b && 0.0 < b
    ensures InUnit(a / b)
  {
  }

  /** Multiplying before or after the division gives the same value. */
  lemma MulDiv(a: real, w: real, b: real)
    requires b != 0.0
    ensures a * w / b == w * (a / b)
  {
  }

  /** `a * w / b` lies in [0, w] when `0 <= a <= b`. */
  lemma ScaledQuotientWithin(a: real, b: real, w: real)
    requires 0.0 <= a <= b && 0.0 < b && 0.0 <= w
    ensures 0.0 <= a * w / b <= w
  {
    var t := a / b;
    QuotientInUnit(a, b);
    MulDiv(a, w, b);
    ScaleWithin(w, t);
  }

  /** A point inside the source range lands inside the new range. */
  lemma InterpolateWithin(x: real, lo: real, hi: real, newLo: real, newHi: real)
    requires lo <= x <= hi && lo < hi && newLo <= newHi
    ensures newLo <= InterpolateToNewRange(x, lo, hi, newLo, newHi) <= newHi
  {
    ScaledQuotientWithin(x - lo, hi - lo, newHi - newLo);
  }

  /** The map preserves order when the new range is increasing. */
  lemma InterpolateMonotone(x: real, y: real, lo: real, hi: real, newLo: real, newHi: real)
    requires x <= y && lo < hi && newLo <= newHi
    ensures InterpolateToNewRange(x, lo, hi, newLo, newHi) <= InterpolateToNewRange(y, lo, hi, newLo, newHi)
  {
    var w := newHi - newLo;
    assert (y - lo) * w - (x - lo) * w == (y - x) * w;
    assert (y - x) * w >= 0.0;
    assert (y - lo) * w / (hi - lo) - (x - lo) * w / (hi - lo) == (y - x) * w / (hi - lo);
  }

  // ---------------------------------------------------------------------
  // Per-cluster colour settings
  // ---------------------------------------------------------------------

  /** The exponent-3 power scale (`interpolateExponential`) of the foreign
      plotting library, taking `(x, lo, hi, newLo, newHi)`. */
  type PowScale = (real, real, real, real, real) -> real

  /** The only property of the power scale the model relies on: a point of
      the domain maps into the range `[0, top]`. */
  ghost predicate PowInRange(pow: PowScale) {
    forall x, lo, hi, top :: lo <= x <= hi && 0.0 <= top ==> 0.0 <= pow(x, lo, hi, 0.0, top) <= top
  }

  /** A feature inside non-degenerate reduced ranges. */
  predicate InData(c: Cluster, d: VolumeData) {
    && d.minVariance < d.maxVariance
    && d.minVariance <= c.variance <= d.maxVariance
    && d.minDistance <= c.distanceToVolumeCenter <= d.maxDistance
  }

  /** `S = 1 / (1 + interpolateToNewRange(variance, min, max, 0, startS))`. */
  function Saturation(c: Cluster, d: VolumeData, startS: real): (r: real)
    requires InData(c, d) && 0.0 <= startS
    ensures 0.0 < r <= 1.0
  {
    InterpolateWithin(c.variance, d.minVariance, d.maxVariance, 0.0, startS);
    1.0 / (1.0 + InterpolateToNewRange(c.variance, d.minVariance, d.maxVariance, 0.0, startS))
  }

  /** `A = 1 - interpolateToNewRange(variance, min, max, 0, 1)`. */
  function Alpha(c: Cluster, d: VolumeData): (r: real)
    requires InData(c, d)
    ensures InUnit(r)
  {
    InterpolateWithin(c.variance, d.minVariance, d.maxVariance, 0.0, 1.0);
    1.0 - InterpolateToNewRange(c.variance, d.minVariance, d.maxVariance, 0.0, 1.0)
  }

  /** `V = 1 / (1 + interpolateExponential(distance, min, max, 0, startV))`. */
  function Value(c: Cluster, d: VolumeData, startV: real, pow: PowScale): (r: real)
    requires InData(c, d) && 0.0 <= startV && PowInRange(pow)
    ensures 0.0 < r <= 1.0
  {
    var e := pow(c.distanceToVolumeCenter, d.minDistance, d.maxDistance, 0.0, startV);
    assert 0.0 <= e;
    1.0 / (1.0 + e)
  }

  /** The lowest variance gets full opacity, the highest none. */
  lemma AlphaEndpoints(c: Cluster, d: VolumeData)
    requires InData(c, d)
    ensures c.variance == d.minVariance ==> Alpha(c, d) == 1.0
    ensures c.variance == d.maxVariance ==> Alpha(c, d) == 0.0
  {
    InterpolateEndpoints(d.minVariance, d.maxVariance, 0.0, 1.0);
  }

  /** Opacity never grows with variance. */
  lemma AlphaNonIncreasing(c1: Cluster, c2: Cluster, d: VolumeData)
    requires InData(c1, d) && InData(c2, d) && c1.variance <= c2.variance
    ensures Alpha(c2, d) <= Alpha(c1, d)
  {
    InterpolateMonotone(c1.variance, c2.variance, d.minVariance, d.maxVariance, 0.0, 1.0);
  }

  /** One `Math.random()` triple per cluster: saturation jitter, value
      jitter and hue. */
  datatype Draw = Draw(s: real, v: real, h: real)

  predicate ValidDraw(r: Draw) {
    0.0 <= r.s < 1.0 && 0.0 <= r.v < 1.0 && 0.0 <= r.h < 1.0
  }

  /** The draws of one round, indexed by candidate and cluster. */
  predicate ValidDraws(draws: seq<seq<Draw>>, n: nat) {
    && |draws| == TfNumber
    && forall k :: 0 <= k < TfNumber ==>
         |draws[k]| == n && forall i :: 0 <= i < n ==> ValidDraw(draws[k][i])
  }

  /** `base + Math.random() * mag - mag / 2`, clamped to `[0, range]`. */
  function Jitter(base: real, draw: real, mag: real, range: real): (r: real)
    requires 0.0 <= range
    ensures 0.0 <= r <= range
    ensures 0.0 <= base <= range && InUnit(draw) && 0.0 <= mag ==>
      base - mag / 2.0 <= r <= base + mag / 2.0
  {
    var x := base + draw * mag - mag / 2.0;
    if InUnit(draw) && 0.0 <= mag then ScaleWithin(mag, draw); Clamp(x, range)
    else Clamp(x, range)
  }

  function Clamp(x: real, range: real): (r: real)
    requires 0.0 <= range
    ensures 0.0 <= r <= range
    ensures 0.0 <= x <= range ==> r == x
    ensures x > range ==> r == range
    ensures x < 0.0 ==> r == 0.0
  {
    if x > range then range else if x < 0.0 then 0.0 else x
  }

  /** Hue wrap-around: one turn is added or removed when the jittered hue
      leaves [0, 1]. */
  function WrapHue(x: real): (r: real)
    ensures -1.0 <= x <= 2.0 ==> InUnit(r)
    ensures r == x || r == x - 1.0 || r == x + 1.0
  {
    if x > 1.0 then x - 1.0 else if x < 0.0 then x + 1.0 else x
  }

  datatype ClusterSettings = ClusterSettings(startS: real, startV: real, S: real, V: real, A: real, Hi: real)

  /** What every cluster setting of a live session satisfies: seeds inside
      their ranges, hue in [0, 1], value in (0, 1], and saturation and
      opacity derived from the cluster's variance. */
  predicate ValidSettings(c: Cluster, d: VolumeData, st: ClusterSettings)
    ensures ValidSettings(c, d, st) ==> Colourable(st)
  {
    && InData(c, d)
    && 0.0 <= st.startS <= SRange
    && 0.0 <= st.startV <= VRange
    && InUnit(st.Hi)
    && 0.0 < st.V <= 1.0
    && st.S == Saturation(c, d, st.startS)
    && st.A == Alpha(c, d)
  }

  /** The four inputs of the colour conversion lie in [0, 1]. */
  predicate Colourable(st: ClusterSettings) {
    InUnit(st.Hi) && InUnit(st.S) && InUnit(st.V) && InUnit(st.A)
  }

  /** Saturation, value and opacity recomputed from the two seeds. */
  function Settle(c: Cluster, d: VolumeData, startS: real, startV: real, hue: real, pow: PowScale): (st: ClusterSettings)
    requires InData(c, d) && 0.0 <= startS && 0.0 <= startV && PowInRange(pow)
    ensures st.startS == startS && st.startV == startV && st.Hi == hue
    ensures startS <= SRange && startV <= VRange && InUnit(hue) ==> ValidSettings(c, d, st)
  {
    ClusterSettings(startS, startV, Saturation(c, d, startS), Value(c, d, startV, pow), Alpha(c, d), hue)
  }

  /** `x` is within `radius` of `center` once a whole turn is added or
      removed where needed. */
  predicate NearModuloTurn(x: real, center: real, radius: real) {
    || center - radius <= x <= center + radius
    || center - radius <= x + 1.0 <= center + radius
    || center - radius <= x - 1.0 <= center + radius
  }

  /** A fresh setting's seeds lie within half a magnitude of the global
      defaults, and its hue is the raw draw. */
  predicate SeededNearDefaults(st: ClusterSettings, r: Draw, m: Adapt) {
    && StartS - m.s / 2.0 <= st.startS <= StartS + m.s / 2.0
    && StartV - m.v / 2.0 <= st.startV <= StartV + m.v / 2.0
    && st.Hi == r.h
  }

  /** An adapted setting's seeds lie within half a magnitude of the selected
      setting's seeds, and its hue within half a magnitude of the selected
      hue up to a whole turn. */
  predicate SeededNearSelected(st: ClusterSettings, sel: ClusterSettings, m: Adapt) {
    && sel.startS - m.s / 2.0 <= st.startS <= sel.startS + m.s / 2.0
    && sel.startV - m.v / 2.0 <= st.startV <= sel.startV + m.v / 2.0
    && NearModuloTurn(st.Hi, sel.Hi, m.h / 2.0)
  }

  /** A fresh cluster setting: the per-cluster body of
      `calculateTransferFunctions`. */
  function GenerateCluster(c: Cluster, d: VolumeData, r: Draw, m: Adapt, pow: PowScale): (st: ClusterSettings)
    requires InData(c, d) && ValidDraw(r) && PowInRange(pow)
    ensures ValidSettings(c, d, st)
    ensures 0.0 <= m.s && 0.0 <= m.v ==> SeededNearDefaults(st, r, m)
  {
    Settle(c, d, Jitter(StartS, r.s, m.s, SRange), Jitter(StartV, r.v, m.v, VRange), r.h, pow)
  }

  /** A cluster setting re-drawn around the selected candidate's setting
      (the per-cluster body of `adaptSelectedFunction`). Its opacity is the selected one's: both come from the
      same variance. */
  function AdaptCluster(c: Cluster, d: VolumeData, sel: ClusterSettings, r: Draw, m: Adapt, pow: PowScale): (st: ClusterSettings)
    requires ValidSettings(c, d, sel) && ValidDraw(r) && ValidAdapt(m) && PowInRange(pow)
    ensures ValidSettings(c, d, st)
    ensures SeededNearSelected(st, sel, m)
    ensures st.A == sel.A
  {
    var x := AdaptedSeeds(sel, r, m);
    Settle(c, d, x.0, x.1, x.2, pow)
  }

  /** The saturation seed, value seed and wrapped hue re-drawn around a
      selected setting: each inside its range and within half a magnitude of
      the selected one (the hue up to a whole turn). */
  function AdaptedSeeds(sel: ClusterSettings, r: Draw, m: Adapt): (x: (real, real, real))
    requires 0.0 <= sel.startS <= SRange && 0.0 <= sel.startV <= VRange && InUnit(sel.Hi)
    requires ValidDraw(r) && ValidAdapt(m)
    ensures 0.0 <= x.0 <= SRange && 0.0 <= x.1 <= VRange && InUnit(x.2)
    ensures sel.startS - m.s / 2.0 <= x.0 <= sel.startS + m.s / 2.0
    ensures sel.startV - m.v / 2.0 <= x.1 <= sel.startV + m.v / 2.0
    ensures NearModuloTurn(x.2, sel.Hi, m.h / 2.0)
  {
    (Jitter(sel.startS, r.s, m.s, SRange), Jitter(sel.startV, r.v, m.v, VRange), AdaptedHue(sel.Hi, r.h, m.h))
  }

  /** The selected hue jittered by up to half a magnitude either way, then
      wrapped back into [0, 1], as the hue step of `adaptSelectedFunction`
      does. */
  function AdaptedHue(hue: real, draw: real, mag: real): (r: real)
    requires InUnit(hue) && InUnit(draw) && InUnit(mag)
    ensures InUnit(r)
    ensures NearModuloTurn(r, hue, mag / 2.0)
  {
    WrappedHueNear(hue, draw, mag);
    WrapHue(hue + draw * mag - mag / 2.0)
  }

  /** The wrapped jittered hue is a hue, within half a magnitude of the
      selected hue up to a whole turn. */
  lemma WrappedHueNear(hue: real, draw: real, mag: real)
    requires InUnit(hue) && InUnit(draw) && InUnit(mag)
    ensures InUnit(WrapHue(hue + draw * mag - mag / 2.0))
    ensures NearModuloTurn(WrapHue(hue + draw * mag - mag / 2.0), hue, mag / 2.0)
  {
    ScaleWithin(mag, draw);
    WrapNear(hue, draw * mag, mag);
  }

  /** Jitter by an offset `p` in [0, mag] minus half the magnitude, then
      wrap: a hue within half a magnitude of the original up to a turn. */
  lemma WrapNear(hue: real, p: real, mag: real)
    requires InUnit(hue) && 0.0 <= p <= mag <= 1.0
    ensures InUnit(WrapHue(hue + p - mag / 2.0))
    ensures NearModuloTurn(WrapHue(hue + p - mag / 2.0), hue, mag / 2.0)
  {
  }

  /** The jittered hue before wrapping stays within half a turn of [0, 1]. */
  lemma HueJitterWithin(hue: real, draw: real, mag: real)
    requires InUnit(hue) && InUnit(draw) && InUnit(mag)
    ensures -1.0 / 2.0 <= hue + draw * mag - mag / 2.0 <= 3.0 / 2.0
  {
    ScaleWithin(mag, draw);
    var p := draw * mag;
    assert 0.0 <= p <= mag;
  }

  /** The control point of a cluster: its rounded centroid value and its
      colour. */
  function PointOf(c: Cluster, d: VolumeData, st: ClusterSettings): (p: ControlPoint)
    requires ValidSettings(c, d, st)
  {
    ControlPoint(Round(c.mean.v), ConvertHsvToRgb(st.Hi, st.S, st.V, st.A).value)
  }

  // ---------------------------------------------------------------------
  // Sessions
  // ---------------------------------------------------------------------

  /** One `Controller`: the features, their reduced ranges, and the eight
      candidates with their settings. */
  datatype Session = Session(
    volume: seq<Cluster>,
    data: VolumeData,
    transferFunctions: seq<TransferFunction>,
    settings: seq<seq<ClusterSettings>>)

  /** Eight candidates and eight rows of settings, one entry per feature. */
  predicate WellShaped(s: Session) {
    && |s.transferFunctions| == TfNumber
    && |s.settings| == TfNumber
    && forall k :: 0 <= k < TfNumber ==>
         |s.transferFunctions[k]| == |s.volume| && |s.settings[k]| == |s.volume|
  }

  /** One setting per feature, each valid for its feature. */
  predicate RowValid(vol: seq<Cluster>, d: VolumeData, row: seq<ClusterSettings>) {
    |row| == |vol| && forall i :: 0 <= i < |vol| ==> ValidSettings(vol[i], d, row[i])
  }

  /** The session invariant: every row of settings is valid for the
      features and their reduced ranges, and every candidate is the
      colouring of its row. */
  predicate Valid(s: Session) {
    && |s.volume| > 0
    && WellShaped(s)
    && forall k :: 0 <= k < TfNumber ==>
         && RowValid(s.volume, s.data, s.settings[k])
         && s.transferFunctions[k] == CandidateOf(s.volume, s.data, s.settings[k])
  }

  /** The candidate built from one row of settings: one control point per
      feature, in feature order. */
  function CandidateOf(vol: seq<Cluster>, d: VolumeData, row: seq<ClusterSettings>): (tf: TransferFunction)
    requires RowValid(vol, d, row)
    ensures |tf| == |vol|
    ensures forall i :: 0 <= i < |vol| ==> tf[i] == PointOf(vol[i], d, row[i])
  {
    seq(|vol|, i requires 0 <= i < |vol| => PointOf(vol[i], d, row[i]))
  }

  /** One fresh row of settings: the loop over the clusters inside
      `calculateTransferFunctions`. */
  function GenerateRow(vol: seq<Cluster>, d: VolumeData, row: seq<Draw>, m: Adapt, pow: PowScale): (r: seq<ClusterSettings>)
    requires |row| == |vol| && PowInRange(pow)
    requires forall i :: 0 <= i < |vol| ==> InData(vol[i], d) && ValidDraw(row[i])
    ensures RowValid(vol, d, r)
    ensures 0.0 <= m.s && 0.0 <= m.v ==> forall i :: 0 <= i < |vol| ==> SeededNearDefaults(r[i], row[i], m)
  {
    seq(|vol|, i requires 0 <= i < |vol| => GenerateCluster(vol[i], d, row[i], m, pow))
  }

  /** `calculateTransferFunctions` without the decay: eight fresh rows. */
  function GenerateAll(vol: seq<Cluster>, d: VolumeData, draws: seq<seq<Draw>>, m: Adapt, pow: PowScale): (s: Session)
    requires ValidDraws(draws, |vol|) && PowInRange(pow) && |vol| > 0
    requires IsVolumeDataOf(vol, d) && d.minVariance < d.maxVariance
    ensures Valid(s) && s.volume == vol && s.data == d
    ensures 0.0 <= m.s && 0.0 <= m.v ==> forall k, i :: 0 <= k < TfNumber && 0 <= i < |vol| ==>
      SeededNearDefaults(s.settings[k][i], draws[k][i], m)
  {
    var rows := seq(TfNumber, k requires 0 <= k < TfNumber => GenerateRow(vol, d, draws[k], m, pow));
    var tfs := seq(TfNumber, k requires 0 <= k < TfNumber => CandidateOf(vol, d, rows[k]));
    Session(vol, d, tfs, rows)
  }

  /** `new Controller(volume)`: reduce the features, generate the eight
      candidates, then shrink the magnitudes. */
  function NewController(vol: seq<Cluster>, m: Adapt, draws: seq<seq<Draw>>, pow: PowScale): (r: Result<(Session, Adapt), SynthError>)
    requires ValidDraws(draws, |vol|) && PowInRange(pow) && DistinctVariances(vol)
    ensures r.Failure? <==> |vol| == 0
    ensures r.Failure? ==> r.error == EmptyVolume
    ensures r.Success? ==> Valid(r.value.0) && r.value.0.volume == vol
    ensures r.Success? ==> IsVolumeDataOf(vol, r.value.0.data)
    ensures r.Success? ==> r.value.1 == Adapt(m.s * 0.8, m.v * 0.8, m.h * 0.8)
    ensures r.Success? && 0.0 <= m.s && 0.0 <= m.v ==> forall k, i :: 0 <= k < TfNumber && 0 <= i < |vol| ==>
      SeededNearDefaults(r.value.0.settings[k][i], draws[k][i], m)
  {
    var d :- CalculateVolumeData(vol);
    Success((GenerateAll(vol, d, draws, m, pow), Decay(m)))
  }

  /** Candidate `tf` re-drawn around the row `sel` (the loop of
      `adaptSelectedFunction`). */
  function AdaptedRow(vol: seq<Cluster>, d: VolumeData, sel: seq<ClusterSettings>, row: seq<Draw>, m: Adapt, pow: PowScale): (r: seq<ClusterSettings>)
    requires RowValid(vol, d, sel) && |row| == |vol| && ValidAdapt(m) && PowInRange(pow)
    requires forall i :: 0 <= i < |vol| ==> ValidDraw(row[i])
    ensures RowValid(vol, d, r)
    ensures forall i :: 0 <= i < |vol| ==> SeededNearSelected(r[i], sel[i], m) && r[i].A == sel[i].A
  {
    seq(|vol|, i requires 0 <= i < |vol| => AdaptCluster(vol[i], d, sel[i], row[i], m, pow))
  }

  /** One call of `adaptSelectedFunction(tf, selectedSettings)`: it reads
      the selected candidate's settings as they are now, and replaces
      candidate `tf` and nothing else. */
  function AdaptCandidate(s: Session, tf: nat, k: nat, draws: seq<seq<Draw>>, m: Adapt, pow: PowScale): (r: Session)
    requires WellShaped(s) && tf < TfNumber && k < TfNumber && RowValid(s.volume, s.data, s.settings[k])
    requires ValidDraws(draws, |s.volume|) && ValidAdapt(m) && PowInRange(pow)
    ensures WellShaped(r) && r.volume == s.volume && r.data == s.data
    ensures r.settings[tf] == AdaptedRow(s.volume, s.data, s.settings[k], draws[tf], m, pow)
    ensures forall j :: 0 <= j < TfNumber && j != tf ==>
      r.settings[j] == s.settings[j] && r.transferFunctions[j] == s.transferFunctions[j]
    ensures Valid(s) ==> Valid(r)
  {
    WithRow(s, tf, AdaptedRow(s.volume, s.data, s.settings[k], draws[tf], m, pow))
  }

  /** Candidate `tf` replaced by the colouring of `row`, and its settings by
      `row`. */
  function WithRow(s: Session, tf: nat, row: seq<ClusterSettings>): (r: Session)
    requires WellShaped(s) && tf < TfNumber && RowValid(s.volume, s.data, row)
    ensures WellShaped(r) && r.volume == s.volume && r.data == s.data
    ensures r.settings[tf] == row
    ensures forall j :: 0 <= j < TfNumber && j != tf ==>
      r.settings[j] == s.settings[j] && r.transferFunctions[j] == s.transferFunctions[j]
    ensures Valid(s) ==> Valid(r)
  {
    s.(settings := s.settings[tf := row],
       transferFunctions := s.transferFunctions[tf := CandidateOf(s.volume, s.data, row)])
  }

  /** Candidates adapted one after the other, in the given order, each from
      the selected candidate's settings as they are at that moment. */
  function AdaptInOrder(s: Session, k: nat, order: seq<nat>, draws: seq<seq<Draw>>, m: Adapt, pow: PowScale): (r: Session)
    requires WellShaped(s) && k < TfNumber && RowValid(s.volume, s.data, s.settings[k])
    requires forall j :: 0 <= j < |order| ==> order[j] < TfNumber
    requires ValidDraws(draws, |s.volume|) && ValidAdapt(m) && PowInRange(pow)
    ensures WellShaped(r) && r.volume == s.volume && r.data == s.data
    ensures RowValid(r.volume, r.data, r.settings[k])
    ensures Valid(s) ==> Valid(r)
    decreases |order|
  {
    if |order| == 0 then s
    else AdaptInOrder(AdaptCandidate(s, order[0], k, draws, m, pow), k, order[1..], draws, m, pow)
  }

  /** The order of `adaptFunctions`: every other candidate first, the
      selected one last. */
  function SourceOrder(k: nat): (r: seq<nat>)
    requires k < TfNumber
    ensures |r| > 0 && r[|r| - 1] == k
    ensures forall x :: x in r <==> 0 <= x < TfNumber
    ensures forall i :: 0 <= i < |r| ==> r[i] < TfNumber
    ensures r == OthersFrom(0, k, TfNumber) + [k]
  {
    var others := OthersFrom(0, k, TfNumber);
    var r := others + [k];
    assert forall x :: x in r ==> x in others || x == k;
    assert forall x :: x in others ==> x in r;
    assert k in r;
    r
  }

  /** `adaptFunctions(k)`: an index outside `[0, 8)` leaves the selected
      settings `undefined`, and the first read of them throws before any
      candidate changes. */
  function AdaptFunctions(s: Session, k: int, draws: seq<seq<Draw>>, m: Adapt, pow: PowScale): (r: Result<(Session, Adapt), SynthError>)
    requires Valid(s) && ValidDraws(draws, |s.volume|) && ValidAdapt(m) && PowInRange(pow)
    ensures r.Failure? <==> !(0 <= k < TfNumber)
    ensures r.Failure? ==> r.error == InvalidCandidateIndex
    ensures r.Success? ==> Valid(r.value.0) && r.value.0.volume == s.volume && r.value.0.data == s.data
    ensures r.Success? ==> r.value.1 == Adapt(m.s * 0.8, m.v * 0.8, m.h * 0.8)
  {
    if !(0 <= k < TfNumber) then Failure(InvalidCandidateIndex)
    else Success((AdaptInOrder(s, k, SourceOrder(k), draws, m, pow), Decay(m)))
  }

  /** `getParameters(selected)`: with no selection the magnitudes are reset
      and the candidates returned as they are; with a selection one
      adaptation round runs first. */
  function GetParameters(s: Session, selected: Option<int>, draws: seq<seq<Draw>>, m: Adapt, pow: PowScale): (r: Result<(Session, Adapt), SynthError>)
    requires Valid(s) && ValidDraws(draws, |s.volume|) && ValidAdapt(m) && PowInRange(pow)
    ensures selected.None? ==> r == Success((s, InitialAdapt))
    ensures selected.Some? ==> (r.Failure? <==> !(0 <= selected.value < TfNumber))
    ensures r.Success? ==> Valid(r.value.0) && ValidAdapt(r.value.1) && r.value.0.volume == s.volume
  {
    match selected
    case None => Success((s, InitialAdapt))
    case Some(k) => AdaptFunctions(s, k, draws, m, pow)
  }

  // ---------------------------------------------------------------------
  // Properties
  // ---------------------------------------------------------------------

  /** The round as a parallel definition: every candidate is re-drawn from
      the selected row as it was before the round. */
  function ParallelRound(vol: seq<Cluster>, d: VolumeData, sel: seq<ClusterSettings>, draws: seq<seq<Draw>>, m: Adapt, pow: PowScale): (r: seq<seq<ClusterSettings>>)
    requires RowValid(vol, d, sel) && ValidDraws(draws, |vol|) && ValidAdapt(m) && PowInRange(pow)
    ensures |r| == TfNumber
  {
    seq(TfNumber, tf requires 0 <= tf < TfNumber => AdaptedRow(vol, d, sel, draws[tf], m, pow))
  }

  /** The row adaptation as a total function of the candidate index and the
      selected row, for the round's order argument; inputs the round never
      passes leave the row as it is. */
  ghost function RowAdapter(vol: seq<Cluster>, d: VolumeData, draws: seq<seq<Draw>>, m: Adapt, pow: PowScale): (nat, seq<ClusterSettings>) -> seq<ClusterSettings>
  {
    (tf: nat, sel: seq<ClusterSettings>) =>
      if tf < TfNumber && RowValid(vol, d, sel) && ValidDraws(draws, |vol|) && ValidAdapt(m) && PowInRange(pow)
      then AdaptedRow(vol, d, sel, draws[tf], m, pow)
      else sel
  }

  /** Adapting candidates in order rewrites the rows of settings as the
      generic round does with the row adaptation. */
  lemma {:induction false} AdaptInOrderRewritesRows(s: Session, k: nat, order: seq<nat>, draws: seq<seq<Draw>>, m: Adapt, pow: PowScale)
    requires WellShaped(s) && k < TfNumber && RowValid(s.volume, s.data, s.settings[k])
    requires forall j :: 0 <= j < |order| ==> order[j] < TfNumber
    requires ValidDraws(draws, |s.volume|) && ValidAdapt(m) && PowInRange(pow)
    ensures AdaptInOrder(s, k, order, draws, m, pow).settings
      == ReplaceInOrder(s.settings, k, order, RowAdapter(s.volume, s.data, draws, m, pow))
    decreases |order|
  {
    if |order| > 0 {
      var f := RowAdapter(s.volume, s.data, draws, m, pow);
      var s1 := AdaptCandidate(s, order[0], k, draws, m, pow);
      assert s1.settings == ReplaceFrom(s.settings, order[0], k, f);
      AdaptInOrderRewritesRows(s1, k, order[1..], draws, m, pow);
    }
  }

  /** Adapting the others first and the selected candidate last is the same
      as re-drawing all eight from the selected candidate's pre-round
      settings. */
  lemma AdaptOrderMatchesParallel(s: Session, k: nat, draws: seq<seq<Draw>>, m: Adapt, pow: PowScale)
    requires Valid(s) && k < TfNumber && ValidDraws(draws, |s.volume|) && ValidAdapt(m) && PowInRange(pow)
    ensures AdaptFunctions(s, k, draws, m, pow).Success?
    ensures AdaptFunctions(s, k, draws, m, pow).value.0.settings
      == ParallelRound(s.volume, s.data, s.settings[k], draws, m, pow)
  {
    var f := RowAdapter(s.volume, s.data, draws, m, pow);
    assert RowValid(s.volume, s.data, s.settings[k]);
    var order := SourceOrder(k);
    var rows := ReplaceInOrder(s.settings, k, order, f);
    assert AdaptFunctions(s, k, draws, m, pow).value.0.settings == rows by {
      AdaptInOrderRewritesRows(s, k, order, draws, m, pow);
    }
    assert rows == ParallelRound(s.volume, s.data, s.settings[k], draws, m, pow) by {
      SelectedLastIsParallel(s.settings, k, f);
      AdapterIsParallel(s.volume, s.data, s.settings, k, draws, m, pow);
    }
  }

  /** Applied to every candidate index, the row adaptation is the parallel
      round. */
  lemma AdapterIsParallel(vol: seq<Cluster>, d: VolumeData, rows: seq<seq<ClusterSettings>>, k: nat, draws: seq<seq<Draw>>, m: Adapt, pow: PowScale)
    requires |rows| == TfNumber && k < TfNumber
    requires RowValid(vol, d, rows[k]) && ValidDraws(draws, |vol|) && ValidAdapt(m) && PowInRange(pow)
    ensures seq(|rows|, j requires 0 <= j < |rows| => RowAdapter(vol, d, draws, m, pow)(j, rows[k]))
      == ParallelRound(vol, d, rows[k], draws, m, pow)
  {
    var f := RowAdapter(vol, d, draws, m, pow);
    forall j | 0 <= j < TfNumber
      ensures f(j, rows[k]) == ParallelRound(vol, d, rows[k], draws, m, pow)[j]
    {
    }
  }

  /** The control point of a valid setting sits at the rounded centroid
      value of its cluster and carries a byte colour. */
  lemma PointFacts(c: Cluster, d: VolumeData, st: ClusterSettings)
    requires ValidSettings(c, d, st)
    ensures PointOf(c, d, st).position == Round(c.mean.v)
    ensures InByteRange(PointOf(c, d, st).value)
  {
    HsvChannelsInRange(st.Hi, st.S, st.V, st.A);
  }

  /** The setting and the control point at one cell of a valid session. */
  lemma CellOfValid(s: Session, k: nat, i: nat)
    requires Valid(s) && k < TfNumber && i < |s.volume|
    ensures ValidSettings(s.volume[i], s.data, s.settings[k][i])
    ensures s.transferFunctions[k][i] == PointOf(s.volume[i], s.data, s.settings[k][i])
  {
    assert RowValid(s.volume, s.data, s.settings[k]);
  }

  /** Every point of every candidate sits at the rounded centroid value of
      its cluster, in cluster order, and carries a byte colour. */
  lemma PositionsFollowCentroids(s: Session)
    requires Valid(s)
    ensures |s.transferFunctions| == TfNumber
    ensures forall k, i :: 0 <= k < TfNumber && 0 <= i < |s.volume| ==>
      && |s.transferFunctions[k]| == |s.volume|
      && s.transferFunctions[k][i].position == Round(s.volume[i].mean.v)
      && InByteRange(s.transferFunctions[k][i].value)
  {
    forall k, i | 0 <= k < TfNumber && 0 <= i < |s.volume|
      ensures s.transferFunctions[k][i].position == Round(s.volume[i].mean.v)
      ensures InByteRange(s.transferFunctions[k][i].value)
    {
      CellOfValid(s, k, i);
      PointFacts(s.volume[i], s.data, s.settings[k][i]);
    }
  }

  /** An adaptation round moves no control point along the value axis. */
  lemma AdaptKeepsPositions(s: Session, k: int, draws: seq<seq<Draw>>, m: Adapt, pow: PowScale)
    requires Valid(s) && ValidDraws(draws, |s.volume|) && ValidAdapt(m) && PowInRange(pow)
    requires 0 <= k < TfNumber
    ensures var r := AdaptFunctions(s, k, draws, m, pow).value.0;
      forall j, i :: 0 <= j < TfNumber && 0 <= i < |s.volume| ==>
        r.transferFunctions[j][i].position == s.transferFunctions[j][i].position
  {
    var r := AdaptFunctions(s, k, draws, m, pow).value.0;
    PositionsFollowCentroids(s);
    PositionsFollowCentroids(r);
  }

  /** Every candidate's opacity for a cluster is the one its variance
      gives. */
  lemma AlphaFromVariance(s: Session)
    requires Valid(s)
    ensures forall j, i :: 0 <= j < TfNumber && 0 <= i < |s.volume| ==>
      s.settings[j][i].A == Alpha(s.volume[i], s.data)
  {
    forall j, i | 0 <= j < TfNumber && 0 <= i < |s.volume|
      ensures s.settings[j][i].A == Alpha(s.volume[i], s.data)
    {
      CellOfValid(s, j, i);
    }
  }

  /** Opacity depends on the variance alone: it is the same in all eight
      candidates, and an adaptation round does not change it. */
  lemma AlphaSharedAndStable(s: Session, k: int, draws: seq<seq<Draw>>, m: Adapt, pow: PowScale)
    requires Valid(s) && ValidDraws(draws, |s.volume|) && ValidAdapt(m) && PowInRange(pow)
    requires 0 <= k < TfNumber
    ensures forall j1, j2, i :: 0 <= j1 < TfNumber && 0 <= j2 < TfNumber && 0 <= i < |s.volume| ==>
      s.settings[j1][i].A == s.settings[j2][i].A
    ensures var r := AdaptFunctions(s, k, draws, m, pow).value.0;
      forall j, i :: 0 <= j < TfNumber && 0 <= i < |s.volume| ==>
        r.settings[j][i].A == s.settings[j][i].A
  {
    AlphaFromVariance(s);
    AlphaFromVariance(AdaptFunctions(s, k, draws, m, pow).value.0);
  }

  /** After an adaptation round every seed is within half a magnitude of the
      selected candidate's pre-round seed, and every hue is within half a
      magnitude of the selected hue up to one whole turn. */
  lemma AdaptSeedsNearSelected(s: Session, k: nat, draws: seq<seq<Draw>>, m: Adapt, pow: PowScale)
    requires Valid(s) && k < TfNumber && ValidDraws(draws, |s.volume|) && ValidAdapt(m) && PowInRange(pow)
    ensures var r := AdaptFunctions(s, k, draws, m, pow).value.0;
      forall j, i :: 0 <= j < TfNumber && 0 <= i < |s.volume| ==>
        SeededNearSelected(r.settings[j][i], s.settings[k][i], m)
  {
    AdaptOrderMatchesParallel(s, k, draws, m, pow);
    var r := AdaptFunctions(s, k, draws, m, pow).value.0;
    var p := ParallelRound(s.volume, s.data, s.settings[k], draws, m, pow);
    forall j, i | 0 <= j < TfNumber && 0 <= i < |s.volume|
      ensures SeededNearSelected(r.settings[j][i], s.settings[k][i], m)
    {
      assert r.settings[j] == p[j] == AdaptedRow(s.volume, s.data, s.settings[k], draws[j], m, pow);
    }
  }

  /** Resetting without a selection restores the initial magnitudes and
      changes no candidate. */
  lemma ResetKeepsCandidates(s: Session, draws: seq<seq<Draw>>, m: Adapt, pow: PowScale)
    requires Valid(s) && ValidDraws(draws, |s.volume|) && ValidAdapt(m) && PowInRange(pow)
    ensures GetParameters(s, None, draws, m, pow).value.0.transferFunctions == s.transferFunctions
    ensures GetParameters(s, None, draws, m, pow).value.1 == Adapt(30.0, 4.0, 2.0 / 3.0)
  {
  }
}

=== FILE: volume_state.dfy ===
/** The readiness protocol of a volume: which requests `readModality` refuses
    before touching anything, the `ready` flag that is cleared while a
    modality loads and set once it is in place, and `getTexture`, which
    hands out the texture only when the volume is ready.

    The WebGL texture is an opaque token; `createTexture` becomes the
    parameter `created`. The block reading, the upload and the statistics in
    between are the business of other modules or left out. */
module VolumeState {
  import opened Wrappers

  type Texture = nat

  datatype Modality = Modality(name: string)

  /** The fields of a `Volume` the protocol reads and writes. `modalities`
      is `None` while it is `null`; an empty list is not `null`. */
  datatype Volume = Volume(
    hasReader: bool,
    modalities: Option<seq<Modality>>,
    ready: bool,
    texture: Option<Texture>)

  datatype VolumeError =
    | NoReader
    | NoModalities
    | ModalityDoesNotExist
    | LoadFailed   // an exception between the texture swap and the end

  /** The constructor: not ready, no metadata, no texture. */
  function NewVolume(hasReader: bool): (v: Volume)
    ensures !v.ready && v.modalities.None? && v.texture.None? && v.hasReader == hasReader
  {
    Volume(hasReader, None, false, None)
  }

  /** `readMetadata` with the reader's answer `read`: without a reader
      nothing happens; otherwise the volume stops being ready and takes the
      new modalities. */
  function ReadMetadata(v: Volume, read: seq<Modality>): (r: Volume)
    ensures !v.hasReader ==> r == v
    ensures v.hasReader ==> !r.ready && r.modalities == Some(read)
    ensures r.hasReader == v.hasReader && r.texture == v.texture
  {
    if !v.hasReader then v else v.(ready := false, modalities := Some(read))
  }

  /** The index of the first modality at or after `from` with that name. */
  function FindFrom(ms: seq<Modality>, name: string, from: nat): (r: Option<nat>)
    ensures r.Some? ==> from <= r.value < |ms| && ms[r.value].name == name
    ensures r.Some? ==> forall j :: from <= j < r.value ==> ms[j].name != name
    ensures r.None? <==> forall j :: from <= j < |ms| ==> ms[j].name != name
    decreases |ms| - from
  {
    if from >= |ms| then None
    else if ms[from].name == name then Some(from)
    else FindFrom(ms, name, from + 1)
  }

  /** `modalities.find(m => m.name === name)`: the first modality with that
      name. */
  function FindModality(ms: seq<Modality>, name: string): (r: Option<Modality>)
    ensures r.None? <==> forall i :: 0 <= i < |ms| ==> ms[i].name != name
    ensures r.Some? ==>
      exists i :: 0 <= i < |ms| && ms[i] == r.value && ms[i].name == name && (forall j :: 0 <= j < i ==> ms[j].name != name)
  {
    match FindFrom(ms, name, 0)
    case None => None
    case Some(i) => Some(ms[i])
  }

  /** The start of `readModality`, up to the texture it creates: the reader
      and the modalities are checked before anything changes; `ready` is
      cleared before the modality is looked up, so a missing modality leaves
      the volume not ready; otherwise the old texture is replaced by
      `created`. */
  function BeginReadModality(v: Volume, name: string, created: Texture): (r: (Volume, Result<Modality, VolumeError>))
    ensures !v.hasReader ==> r == (v, Failure(NoReader))
    ensures v.hasReader && v.modalities.None? ==> r == (v, Failure(NoModalities))
    ensures v.hasReader && v.modalities.Some? ==> !r.0.ready && r.0.modalities == v.modalities
    ensures v.hasReader && v.modalities.Some? ==>
      (r.1.Failure? <==> forall i :: 0 <= i < |v.modalities.value| ==> v.modalities.value[i].name != name)
    ensures r.1.Failure? && v.hasReader && v.modalities.Some? ==>
      r.1.error == ModalityDoesNotExist && r.0.texture == v.texture
    ensures r.1.Success? ==> r.1.value in v.modalities.value && r.1.value.name == name
    ensures r.1.Success? ==> r.0.texture == Some(created)
  {
    if !v.hasReader then (v, Failure(NoReader))
    else if v.modalities.None? then (v, Failure(NoModalities))
    else
      var v1 := v.(ready := false);
      match FindModality(v.modalities.value, name)
      case None => (v1, Failure(ModalityDoesNotExist))
      case Some(m) => (v1.(texture := Some(created)), Success(m))
  }

  /** The end of `readModality`: the volume becomes ready. */
  function FinishReadModality(v: Volume): (r: Volume)
    ensures r.ready && r.texture == v.texture && r.modalities == v.modalities && r.hasReader == v.hasReader
  {
    v.(ready := true)
  }

  /** A whole `readModality`. `loadThrows` says whether the loading in
      between (block reads, upload, statistics, the request for candidates,
      the preview ramps) throws; if it does, the exception leaves the
      volume as the guards left it, not ready. */
  function ReadModality(v: Volume, name: string, created: Texture, loadThrows: bool): (r: (Volume, Result<Modality, VolumeError>))
    ensures r.1.Success? <==> BeginReadModality(v, name, created).1.Success? && !loadThrows
    ensures r.1 == Failure(LoadFailed) <==> BeginReadModality(v, name, created).1.Success? && loadThrows
    ensures r.0.ready <==> r.1.Success? || ((!v.hasReader || v.modalities.None?) && v.ready)
    ensures r.0.texture == BeginReadModality(v, name, created).0.texture
  {
    var (v1, res) := BeginReadModality(v, name, created);
    if res.Failure? then (v1, res)
    else if loadThrows then (v1, Failure(LoadFailed))
    else (FinishReadModality(v1), res)
  }

  /** `getTexture`: the texture when ready, `null` otherwise. */
  function GetTexture(v: Volume): (r: Option<Texture>)
    ensures r.Some? <==> v.ready && v.texture.Some?
    ensures r.Some? ==> r == v.texture
  {
    if v.ready then v.texture else None
  }

  // ---------------------------------------------------------------------
  // Properties
  // ---------------------------------------------------------------------

  /** While a modality loads, `getTexture` answers `null`, and once it has
      loaded it answers the texture created for it. */
  lemma TextureHiddenWhileLoading(v: Volume, name: string, created: Texture)
    requires BeginReadModality(v, name, created).1.Success?
    ensures GetTexture(BeginReadModality(v, name, created).0) == None
    ensures GetTexture(FinishReadModality(BeginReadModality(v, name, created).0)) == Some(created)
  {
  }

  /** After `readModality` the volume is ready exactly when the read
      succeeded, except that a refusal by the first two guards leaves the
      volume as it was; a failure while loading leaves the new texture in
      place but hidden. */
  lemma ReadyIffLoaded(v: Volume, name: string, created: Texture, loadThrows: bool)
    ensures var (r, res) := ReadModality(v, name, created, loadThrows);
      && (res.Success? ==> r.ready && GetTexture(r) == Some(created))
      && (res.Failure? && res.error in {NoReader, NoModalities} ==> r == v)
      && (res.Failure? && res.error in {ModalityDoesNotExist, LoadFailed} ==> !r.ready && GetTexture(r) == None)
      && (res == Failure(LoadFailed) ==> r.texture == Some(created))
  {
  }

  /** The guards are checked in order: the reader, then the modalities, then
      the name; only then can the loading fail. */
  lemma GuardOrder(v: Volume, name: string, created: Texture, loadThrows: bool)
    ensures ReadModality(v, name, created, loadThrows).1 == Failure(NoReader) <==> !v.hasReader
    ensures ReadModality(v, name, created, loadThrows).1 == Failure(NoModalities) <==> v.hasReader && v.modalities.None?
    ensures ReadModality(v, name, created, loadThrows).1 == Failure(ModalityDoesNotExist) <==>
      v.hasReader && v.modalities.Some? && FindModality(v.modalities.value, name).None?
    ensures ReadModality(v, name, created, loadThrows).1 == Failure(LoadFailed) <==>
      v.hasReader && v.modalities.Some? && FindModality(v.modalities.value, name).Some? && loadThrows
  {
  }
}

=== FILE: wrappers.dfy ===
/** Failure-carrying datatypes shared by every module of the model. */
module Wrappers {

  datatype Option<+T> = None | Some(value: T)

  datatype Result<+R, +E> = Success(value: R) | Failure(error: E) {
    predicate IsFailure() {
      Failure?
    }

    function PropagateFailure<U>(): Result<U, E>
      requires Failure?
    {
      Failure(error)
    }

    function Extract(): R
      requires Success?
    {
      value
    }
  }
}
